=== FILE: README.md ===
# Quiz frontend core, modelled in Dafny

A model of the client-side logic of a browser quiz application written in
React. It covers:

- **Taking a quiz.** The taking component is a state machine: the name prompt, answer slots, moving forward and back, scoring on the last question and submitting the attempt. Browser storage and the submit request are inputs to the transitions.
- **Reviewing an attempt.** Every question is marked correct or wrong, and every option is marked as the correct option, the participant's wrong pick, or neither.
- **Leaderboards.** There are two views:
  - the board shown right after an attempt, with the participant's own result merged into the server's list, their rank, and the participant / average / high-score tiles;
  - the stand-alone leaderboard page, with its podium decorations and its mean-of-percentages tile.
- **The dashboard.** Counts, the average score tile, and the lists of created quizzes and attended results.
- **Generating a quiz.** The topic and key guards, the generator's HTTP errors, code-fence stripping of the reply, the exactly-ten-questions check, numbering of the questions, and the save.
- **The quiz preview.** The take and leaderboard routes, the share link, the preview's question navigation and highlighting, and the participant tiles.
- **The navigation bar's avatar initials.**

Module layout follows the source files. Shared modules:

- `Wrappers`: Option, and the outcome of an HTTP request.
- `Text`: JavaScript `trim`, `startsWith`/`endsWith`, and `||` on strings.
- `Entities`: quiz, question, attempt result, stored user.
- `Grading`: score, `Math.round`, percentage, colour bands.
- `Aggregates`: sums, mean, maximum, one-decimal formatting.
- `Ranking`: rank icons, backgrounds and badges.

Per-view modules: `QuizTaker`, `Review`, `ResultsPage`, `Leaderboard`, `LeaderboardPage`, `Dashboard`, `QuizCreator`, `QuizDisplay`, `Navbar`.

Conventions:

- **Absent values.** An `_id` or `topic` the backend may omit is the empty string, since both are falsy in the source's tests. A `username` is read that way only where the source falls back to "" itself (QuizTaker.tsx:37). Where an absent value is written into a text, or used as a string, the two differ (see "Left out").
- **Requests.** A request is `Fetch`: either it failed, or it loaded a body that may be empty.
- **Parsing.** `JSON.parse` of the generator's text is a function parameter.
- **Arithmetic.** `Math.round` is taken on exact reals as the floor of `x + 1/2`. A percentage of a result with no questions, where the browser shows `NaN` or `Infinity`, is `None`.

Three behaviours of the source are easy to miss:

- **Ranking.** Neither leaderboard sorts: rank is the position in the list the server returned, plus one, so rank order is whatever order the server sent. `Leaderboard.RankCanPointAtAnotherAttempt` shows a second consequence: the rank goes by name only, so it can point at an earlier attempt under the same name.
- **Question shape.** The generator's questions are accepted on their count alone (exactly ten). Neither four options nor a correct index in range is checked, so the model assumes neither. `Review.RowMarksAgree` states what holds when the correct index is in range.
- **Expired session.** A missing, unparseable or id-less stored user at submit time does not only surface an error. It also logs the participant out and opens the login form. The question index and the answers are kept (`QuizTaker.LoginResumesAttempt`).

## Model

| member | source | states |
|---|---|---|
| Text.Trim | frontend/src/components/QuizTaker.tsx:56 | the trimmed string has no whitespace at either end, is no longer than the input, and is empty exactly when the input is all whitespace |
| Text.TrimIsInfix | frontend/src/components/QuizTaker.tsx:56 | the trimmed string is a contiguous piece of the input: it follows the leading whitespace that `trimStart` drops, and what is cut off before and after it is all whitespace |
| Text.TrimIdempotent | frontend/src/components/QuizCreator.tsx:27 | trimming twice is trimming once |
| Text.Or | frontend/src/components/QuizDisplay.tsx:16 | `a \|\| b` on strings: `a` when it is non-empty, else `b`; empty only when both are |
| Entities.ParticipantTotal | frontend/src/pages/Dashboard.tsx:151 | `participantCount \|\| participants.length \|\| 0`: the stored count when it is non-zero, else the length of the participant list |
| Entities.QuizId | frontend/src/components/QuizDisplay.tsx:16 | `quiz._id \|\| quiz.id`: the backend id when present, else the client id; empty only when both are |
| Entities.UserId | frontend/src/components/QuizTaker.tsx:109 | `userObj._id \|\| userObj.id`: the backend id when present, else the other id; empty only when both are |
| Grading.Score | frontend/src/components/QuizTaker.tsx:84-86 | the reduce over the answer slots counts the positions whose answer equals the question's correct index, never more than the number of slots |
| Grading.ScoreCountsCorrectPositions | frontend/src/components/QuizTaker.tsx:84-86 | the score is the size of the set of positions answered correctly (reference definition) |
| Grading.ScoreOfCorrectnessOnly | frontend/src/components/QuizTaker.tsx:84-86 | two answer sets that are right and wrong at the same positions get the same score |
| Grading.Round | frontend/src/components/Leaderboard.tsx:82 | `Math.round`: the integer r with r <= x + 1/2 < r + 1 |
| Grading.RoundMonotone | frontend/src/components/Leaderboard.tsx:82 | rounding never reverses order |
| Grading.RoundOfInteger | frontend/src/components/Leaderboard.tsx:82 | an integer rounds to itself |
| Grading.PercentInRange | frontend/src/pages/ResultsPage.tsx:74 | the rounded percentage of a score within its total lies in 0..100, is 0 for no correct answers and 100 for all |
| Grading.Percent | frontend/src/pages/ResultsPage.tsx:74 | `Math.round(score / total * 100)` on exact rationals equals the integer formula (200·score + total) div (2·total), i.e. the nearest whole percentage with halves rounded up |
| Grading.RoundOfRatio | frontend/src/pages/ResultsPage.tsx:74 | `Math.round(n / d)` is (2n + d) div 2d for every integer n and positive d |
| Grading.ScoreColor | frontend/src/pages/Dashboard.tsx:195-200 | the band is emerald exactly from 80, blue exactly for 60..79, orange exactly for 40..59, red exactly below 40 |
| Grading.ScoreColorMonotone | frontend/src/pages/Dashboard.tsx:195-200 | a higher percentage never gets a lower band |
| Grading.ResultPercent | frontend/src/pages/Dashboard.tsx:194 | a result's percentage exists exactly when it has questions, is then the nearest whole percentage (200·score + total) div (2·total), and lies in 0..100 when the score is within the total |
| Grading.ResultBand | frontend/src/pages/Dashboard.tsx:194-223 | the band of the result's percentage; with no questions, `Infinity` (positive score) passes every threshold and `NaN` (zero score) passes none |
| Aggregates.HighScore | frontend/src/components/Leaderboard.tsx:294 | `Math.max` of the scores: at least every score, attained by some result, 0 for an empty list |
| Aggregates.SumAtMostCountTimesHigh | frontend/src/components/Leaderboard.tsx:286-294 | the sum of the scores is at most the count times the high score |
| Aggregates.AverageAtMostHigh | frontend/src/components/Leaderboard.tsx:286-288 | the one-decimal average (in tenths) lies between 0 and ten times the high score |
| Aggregates.MeanPercent | frontend/src/pages/LeaderboardPage.tsx:83-85 | the mean-of-percentages tile: 0 for no results, otherwise the integer within one half of the mean of the unrounded percentages, halves rounded up |
| Aggregates.MeanPercentInRange | frontend/src/pages/LeaderboardPage.tsx:83-85 | the mean of the per-result percentages lies in 0..100 when every score is within its total |
| Aggregates.SumPercentInRange | frontend/src/pages/LeaderboardPage.tsx:84 | the sum of the per-result percentages lies between 0 and 100 times the count |
| Aggregates.PercentValueInRange | frontend/src/pages/LeaderboardPage.tsx:84 | one unrounded percentage lies in 0..100 |
| Aggregates.SumPercentUniformTotal | frontend/src/pages/Dashboard.tsx:90 | with a common total, the sum of percentages is the summed score over the total, times 100 |
| Aggregates.MeanPercentUniformTotal | frontend/src/pages/Dashboard.tsx:89-91 | with a common total, the mean of percentages is the rounded percentage of the mean score |
| Aggregates.AverageTenths | frontend/src/components/Leaderboard.tsx:287 | ten times the average score, rounded: (20·sum + n) div (2n) for n results |
| Aggregates.FormatTenths | frontend/src/components/Leaderboard.tsx:287 | `(t / 10).toFixed(1)` for a whole number of tenths: at least three characters, a point before the last digit |
| Aggregates.FormatTenthsRoundTrip | frontend/src/components/Leaderboard.tsx:287 | the text is the decimal rendering of t div 10, a point and one digit, and reading it back gives t |
| Aggregates.AverageText | frontend/src/components/Leaderboard.tsx:286-288 | the Avg Score tile: "0.0" for an empty board; otherwise a one-decimal text that reads back as the rounded tenths (20·sum + n) div (2n) of the mean score |
| Aggregates.NatToString | frontend/src/components/Leaderboard.tsx:287 | the decimal rendering is non-empty, all digits, and has no leading zero |
| Aggregates.NatToStringRoundTrip | frontend/src/components/Leaderboard.tsx:287 | reading the digits back gives the number |
| Ranking.RankIcon | frontend/src/components/Leaderboard.tsx:40-51 | trophy exactly for rank 1, medal for 2, award for 3, and the plain rank number for every other rank |
| Ranking.RankBackground | frontend/src/pages/LeaderboardPage.tsx:184-189 | gold, silver and amber exactly for ranks 1, 2, 3; the standard background otherwise |
| Ranking.RankBadge | frontend/src/pages/LeaderboardPage.tsx:206-211 | a badge exactly when rank <= 3: Winner for 1, 2nd for 2, 3rd for every other rank up to 3 |
| Ranking.PodiumDecorationsAgree | frontend/src/pages/LeaderboardPage.tsx:184-211 | for ranks from 1, icon, background and badge decorate the same rows, and the three podium ranks differ in each |
| QuizTaker.Mount | frontend/src/components/QuizTaker.tsx:30-46 | a parseable stored user logs the participant in under its username on the name prompt; otherwise the login form opens with an empty name |
| QuizTaker.EditName | frontend/src/components/QuizTaker.tsx:271 | the name field changes the name only when not logged in |
| QuizTaker.LoginSucceeded | frontend/src/components/QuizTaker.tsx:188-198 | a login logs in under the account's name and closes the forms, keeping the index, the answers and the started flag |
| QuizTaker.ShowAuthForm | frontend/src/components/QuizTaker.tsx:187 | switching to the login or signup form changes only which form is shown |
| QuizTaker.EmptySlots | frontend/src/components/QuizTaker.tsx:61 | `Array(n).fill(null)` gives exactly `n` slots, every one empty |
| QuizTaker.Start | frontend/src/components/QuizTaker.tsx:55-65 | a blank (after trim) name changes nothing; otherwise one empty slot per question is allocated and the first question is shown |
| QuizTaker.Select | frontend/src/components/QuizTaker.tsx:67-73 | the selection is written into the current slot and nowhere else |
| QuizTaker.SelectLastWriteWins | frontend/src/components/QuizTaker.tsx:67-73 | a second selection on the same question replaces the first |
| QuizTaker.Retreat | frontend/src/components/QuizTaker.tsx:155-159 | Previous steps back one question unless on the first, and changes nothing else |
| QuizTaker.PreviousDisabledIffNoop | frontend/src/components/QuizTaker.tsx:366 | the Previous button is disabled exactly when pressing it would change nothing |
| QuizTaker.SubmitFailureMessage | frontend/src/components/QuizTaker.tsx:146-150 | the server's error text is shown when present, the generic message otherwise |
| QuizTaker.Advance | frontend/src/components/QuizTaker.tsx:75-153 | an empty slot blocks; before the last question it moves on; on the last, a missing stored user is an expired session, an unparseable one an invalid session and one without an id a missing-id error, each opening the login form; with an id, a failed submit shows the server's message and a successful one completes with the correct-position count as score and sends the player's name, the question count, the answers and that score; every outcome but completion keeps the question and answers |
| QuizTaker.FinishLabelMatchesAdvance | frontend/src/components/QuizTaker.tsx:379 | the button reads "Finish Quiz" exactly when an answered advance does not move on |
| QuizTaker.StartBeginsTaking | frontend/src/components/QuizTaker.tsx:55-65 | a successful start on a non-empty quiz enters the taking invariant (one slot per question, index on a question) |
| QuizTaker.TakingPreserved | frontend/src/components/QuizTaker.tsx:67-159 | every transition available while taking keeps the taking invariant |
| QuizTaker.AnswersNeverCleared | frontend/src/components/QuizTaker.tsx:67-159 | no transition empties a slot that was answered |
| QuizTaker.RetryAfterFailedSubmit | frontend/src/components/QuizTaker.tsx:141-151 | after a failed submit, advancing again submits the same answers and score and completes once the backend accepts |
| QuizTaker.LoginResumesAttempt | frontend/src/components/QuizTaker.tsx:99-125 | after the session check fails, logging in returns to the same question with the same answers and selection |
| QuizTaker.WorkedFinish | frontend/src/components/QuizTaker.tsx:67-93 | answering 2 then 1 on questions whose correct options are 2 and 0 completes with score 1 of 2, i.e. 50% |
| QuizTaker.WorkedFirstAnswer | frontend/src/components/QuizTaker.tsx:67-81 | selecting option 2 on the first question and advancing moves to the second with the answer kept |
| QuizTaker.WorkedStart | frontend/src/components/QuizTaker.tsx:55-65 | starting a two-question quiz allocates two empty slots on question 0 |
| QuizTaker.UnansweredFirstQuestionBlocks | frontend/src/components/QuizTaker.tsx:76-79 | advancing from an unanswered first question reports "select an answer" and leaves every slot empty |
| Review.AnswerAt | frontend/src/components/Leaderboard.tsx:110 | `answers[index]` past the end is undefined, i.e. no answer |
| Review.MarkOption | frontend/src/components/Leaderboard.tsx:136-149 | an option is marked correct exactly when it is the correct index, a wrong pick exactly when it is the participant's answer and not correct, and neutral otherwise |
| Review.BadgesFollowMarks | frontend/src/components/Leaderboard.tsx:154-159 | the "Correct" badge shows exactly on the correct option and "Your Answer" exactly on a wrong pick, never both |
| Review.OptionLabel | frontend/src/components/Leaderboard.tsx:152 | `String.fromCharCode(65 + i)`: code 65 + i, a capital letter for the first 26 options |
| Review.OptionLabelsDistinct | frontend/src/pages/ResultsPage.tsx:200 | different options get different labels, the first four being A, B, C, D |
| Review.ReviewQuestion | frontend/src/pages/ResultsPage.tsx:157-207 | a question is shown correct exactly when the answer equals its correct index, with one mark per option |
| Review.RowMarksAgree | frontend/src/pages/ResultsPage.tsx:157-207 | with the correct index in range, exactly one option is marked correct, and the question is correct exactly when the answer is an option and no option is a wrong pick |
| Review.ReviewAll | frontend/src/components/Leaderboard.tsx:109-167 | one review row per question, each reviewing the answer at that position |
| Review.CountCorrectIsCardinality | frontend/src/components/Leaderboard.tsx:109-167 | the count of correct rows is the size of the set of correct positions |
| Review.CorrectRowsEqualScore | frontend/src/components/Leaderboard.tsx:109-167 | the review shows exactly as many correct questions as the submitted score counted |
| ResultsPage.ShowResults | frontend/src/pages/ResultsPage.tsx:66-74 | "Result not found" exactly when the quiz or the result is missing; otherwise the score, total, the result's rounded percentage and the review of every question against the stored answers, with the correct option and a wrong pick marked |
| ResultsPage.OpenResults | frontend/src/pages/ResultsPage.tsx:18-40 | loading sends the user to the dashboard exactly when the result request fails, its body is empty, or the quiz request fails |
| ResultsPage.CompletedAttemptReviewsAsScored | frontend/src/pages/ResultsPage.tsx:157-207 | a completed attempt reviews with as many correct rows as its score, and its percentage lies in 0..100 (100 when all are correct) |
| Leaderboard.Listed | frontend/src/components/Leaderboard.tsx:27 | `some` is true exactly when an entry has the same name and score |
| Leaderboard.MergeCurrent | frontend/src/components/Leaderboard.tsx:26-30 | the participant's result is prepended exactly when no entry has their name and score |
| Leaderboard.MergeKeepsServerOrder | frontend/src/components/Leaderboard.tsx:26-31 | the server's list survives whole and in order as a suffix, at most one row is added, the participant is listed, and merging again changes nothing |
| Leaderboard.LoadBoard | frontend/src/components/Leaderboard.tsx:20-38 | no id gives an empty board; a failed request gives only the participant's result; a loaded one is merged, an empty body counting as an empty list |
| Leaderboard.FindByName | frontend/src/components/Leaderboard.tsx:81 | `findIndex`: the first position with the name, or -1 exactly when no entry has it |
| Leaderboard.UserRank | frontend/src/components/Leaderboard.tsx:81 | `findIndex(...) + 1`: 0 exactly when no row has the name, otherwise the position (from 1) of the first row with it |
| Leaderboard.LoadedBoardRanksParticipant | frontend/src/components/Leaderboard.tsx:20-81 | once the board is loaded for a quiz with an id, the participant's rank is a position on it, the row there carries their name and no earlier row does; when their result had to be added, the rank is 1 |
| Leaderboard.RankCanPointAtAnotherAttempt | frontend/src/components/Leaderboard.tsx:27-81 | an earlier attempt under the same name takes rank 1 while the row at that rank shows another score |
| Leaderboard.BoardRows | frontend/src/components/Leaderboard.tsx:234-275 | one row per entry in server order, ranked from 1, marked "You" exactly when the name is the participant's |
| Leaderboard.RowsAgreeWithRank | frontend/src/components/Leaderboard.tsx:234-275 | the row at the participant's rank is marked "You", no row before it is, and only the first three rows get podium icons |
| Leaderboard.BoardStats | frontend/src/components/Leaderboard.tsx:279-298 | participants is the board length; the average text reads back as the rounded tenths of the mean score; the high score is the maximum score; an empty board shows 0, "0.0", 0 |
| Leaderboard.StatsCoverParticipant | frontend/src/components/Leaderboard.tsx:279-298 | after the merge there is at least one participant, the high score is at least the participant's, and the average is at most the high score |
| Leaderboard.PersonalCard | frontend/src/components/Leaderboard.tsx:81-82 | the personal card shows the participant's percentage, rank and rank icon, and the review of every question against the participant's answers, whose correct rows number the submitted score |
| LeaderboardPage.ShowPage | frontend/src/pages/LeaderboardPage.tsx:83-229 | the tiles show the board length, the mean of percentages (when every result has questions, 0 for none), the maximum score and the question count; "no participants" exactly for an empty board; otherwise one row per result in server order, row i being the row of result i |
| LeaderboardPage.PageRowAt | frontend/src/pages/LeaderboardPage.tsx:173-222 | the row at position i is ranked i + 1 and shows that result; only the first three rows get a badge, a coloured background and a podium icon; the percentage is the result's `Math.round(score / totalQuestions * 100)`, present exactly with questions, and the row's colour is that result's band, red for a zero total and zero score |
| LeaderboardPage.OpenPage | frontend/src/pages/LeaderboardPage.tsx:17-81 | either request failing sends the user to the dashboard; an empty quiz body shows "Quiz not found"; an empty result body counts as no results |
| LeaderboardPage.PercentagesInRange | frontend/src/pages/LeaderboardPage.tsx:83-175 | with scores within totals, the average tile and every row's percentage lie in 0..100 |
| LeaderboardPage.PodiumRowsDecorated | frontend/src/pages/LeaderboardPage.tsx:184-211 | each of the first three rows gets icon, background and badge; later rows get none |
| LeaderboardPage.HighScoreWithinQuestionCount | frontend/src/pages/LeaderboardPage.tsx:149 | when every result is for this quiz, the high score never exceeds the question count shown beside it |
| LeaderboardPage.AverageAgreesWithRawMean | frontend/src/pages/LeaderboardPage.tsx:83-85 | with a common positive total, the mean of percentages is the rounded percentage of the raw mean score |
| Dashboard.LoadLists | frontend/src/pages/Dashboard.tsx:12-35 | no request without a user and a token; either request failing empties both lists; an empty body leaves a missing list |
| Dashboard.CardOf | frontend/src/pages/Dashboard.tsx:126-156 | a created quiz's card shows its topic, participant total and question count |
| Dashboard.ResultCardOf | frontend/src/pages/Dashboard.tsx:194-223 | a result card shows the topic and score, the result's rounded percentage, present exactly when it has questions, and that result's colour band: the band of the percentage, and for a zero total emerald for a positive score (`Infinity`) and red for a zero score (`NaN`) |
| Dashboard.ListedResults | frontend/src/pages/Dashboard.tsx:202 | results without a topic get no card, so there are at most as many cards as results |
| Dashboard.WithTopicMembers | frontend/src/pages/Dashboard.tsx:202 | a result is kept by the topic filter exactly when it is in the list and has a topic |
| Dashboard.CardsFollowTopicFilter | frontend/src/pages/Dashboard.tsx:188-228 | card `i` is the card of the `i`-th result that has a topic, and there is one card per such result |
| Dashboard.WithTopicKeepsAll | frontend/src/pages/Dashboard.tsx:202 | the topic filter keeps every result exactly when each result has a topic |
| Dashboard.ListedResultsAreTopicFilter | frontend/src/pages/Dashboard.tsx:188-228 | the cards are exactly the results with a topic, in order; all results are shown exactly when each has a topic |
| Dashboard.Sectioned | frontend/src/pages/Dashboard.tsx:116 | the empty-state text exactly for an empty list |
| Dashboard.ShowDashboard | frontend/src/pages/Dashboard.tsx:39-228 | the render fails exactly on a missing list; before loading both sections spin; after, the tiles count both lists, the average is the mean of percentages exactly when every result has questions (0 for no results), each section is empty exactly for an empty list, and the result section lists the topic-filtered cards |
| Dashboard.AverageIgnoresTopics | frontend/src/pages/Dashboard.tsx:89-91 | the average tile covers every result, hidden or not: changing topics does not move it, and it lies in 0..100 for scores within totals |
| Dashboard.CreatedCardsCount | frontend/src/pages/Dashboard.tsx:126-156 | one card per created quiz, showing the stored participant count when positive and the list length when the count is 0 |
| QuizCreator.DropClosingFence | frontend/src/components/QuizCreator.tsx:91-93 | `replace(/```$/, '')` removes one closing fence only when the text ends with it |
| QuizCreator.Unfence | frontend/src/components/QuizCreator.tsx:89-94 | an opening "```json" is checked before "```"; either is dropped with a closing fence and the rest trimmed; unfenced text is untouched |
| QuizCreator.StripFences | frontend/src/components/QuizCreator.tsx:89-94 | the cleaned text has no whitespace at either end |
| QuizCreator.StripFencesOfUnfenced | frontend/src/components/QuizCreator.tsx:89-94 | text that does not begin with a fence is only trimmed |
| QuizCreator.StripJsonFence | frontend/src/components/QuizCreator.tsx:90-91 | a body wrapped in "```json" and "```" comes back as the trimmed body |
| QuizCreator.StripPlainFence | frontend/src/components/QuizCreator.tsx:92-93 | a body wrapped in bare fences comes back trimmed, unless it begins with "json" |
| QuizCreator.Renumber | frontend/src/components/QuizCreator.tsx:112-117 | one question per generated question, numbered 1, 2, ... |
| QuizCreator.RenumberRoundTrip | frontend/src/components/QuizCreator.tsx:112-117 | numbering drops nothing: text, options and correct index are recovered |
| QuizCreator.Draft | frontend/src/components/QuizCreator.tsx:109-121 | the posted quiz has the typed topic, the numbered questions, no participants, and the stored user's id as creator |
| QuizCreator.Message | frontend/src/components/QuizCreator.tsx:28-138 | the toast is a success toast exactly for a saved quiz; every other outcome, an unsaved draft included, shows an error toast |
| QuizCreator.Creator | frontend/src/components/QuizCreator.tsx:120 | `user?._id`: the stored user's backend id, absent when no user is stored |
| QuizCreator.ReadQuestions | frontend/src/components/QuizCreator.tsx:95-107 | accepted exactly when the parse yields a value whose questions are an array of exactly ten; an unparseable text and a `null` value are told apart |
| QuizCreator.Settle | frontend/src/components/QuizCreator.tsx:95-139 | generated exactly for accepted questions, a readable stored user and a successful save; not saved exactly when only the save fails; unparseable text and a wrong shape have their own messages; a generation failure exactly for a `null` value or an unparseable stored user |
| QuizCreator.StatusOutcome | frontend/src/components/QuizCreator.tsx:73-79 | 429 is the quota message, 401 the invalid-key message, every other status the generic failure |
| QuizCreator.AfterGuards | frontend/src/components/QuizCreator.tsx:37-139 | past the guards: a thrown request fails generation, an HTTP error goes by status, and a reply is stripped, parsed, checked and saved |
| QuizCreator.Generate | frontend/src/components/QuizCreator.tsx:26-139 | a blank topic, then a blank key, stops with its message and leaves the generating flag as it was; every later path ends with the flag cleared |
| QuizCreator.GeneratedExactly | frontend/src/components/QuizCreator.tsx:26-139 | a quiz is generated exactly when the guards pass, the service replies, the stripped reply parses to ten questions, the stored user is readable and the save succeeds; any posted quiz comes from a reply that parsed to ten questions, and it carries the typed topic, the stored user's id and those questions numbered 1..10, recoverable unchanged |
| QuizCreator.SettledDraft | frontend/src/components/QuizCreator.tsx:109-121 | a draft exists only for accepted questions, and it carries the typed topic, the stored user's id and every accepted question, numbered from 1 and recoverable unchanged |
| QuizCreator.EnabledPressPassesGuards | frontend/src/components/QuizCreator.tsx:180 | a press through the enabled button never stops at a guard and leaves the button enabled again |
| QuizCreator.HttpErrorMessages | frontend/src/components/QuizCreator.tsx:67-82 | 429 and 401 have their own outcomes; every other status shows the message of a thrown error |
| QuizCreator.FencedReplyParsesBody | frontend/src/components/QuizCreator.tsx:85-95 | a reply fenced as "```json" is handled exactly as its trimmed body would be |
| QuizDisplay.TakePath | frontend/src/components/QuizDisplay.tsx:19 | the take route is "/quiz/" + id + "/take" |
| QuizDisplay.LeaderboardPath | frontend/src/components/QuizDisplay.tsx:23 | the leaderboard route is "/quiz/", the id, then "/leaderboard" |
| QuizDisplay.ShareUrl | frontend/src/components/QuizDisplay.tsx:16-27 | the share link is the origin followed by the take route of `_id \|\| id` |
| QuizDisplay.QuizRoute | frontend/src/components/QuizDisplay.tsx:19 | a quiz route is "/quiz/", the id, then the suffix, and the id is the piece between them |
| QuizDisplay.MatchRoute | frontend/src/App.tsx:100-101 | a route read as `/quiz/:id` plus a suffix yields a non-empty id free of '/', '?', '#' and '%', whose route is that path |
| QuizDisplay.RouteRoundTrip | frontend/src/components/QuizDisplay.tsx:19 | a route built from an id reads back as that id exactly when the id is non-empty and free of '/', '?', '#' and '%', the characters a URL path segment does not carry back unchanged |
| QuizDisplay.MatchLeaderboard | frontend/src/App.tsx:101 | a route read as `/quiz/:id/leaderboard` yields a non-empty id free of '/', '?', '#' and '%', whose leaderboard route is that path |
| QuizDisplay.LeaderboardPathRoundTrip | frontend/src/components/QuizDisplay.tsx:23 | the leaderboard button's route reads back as the quiz's id exactly when the id is non-empty and free of '/', '?', '#' and '%', the characters a URL path segment does not carry back unchanged |
| QuizDisplay.TakeAndLeaderboardDiffer | frontend/src/components/QuizDisplay.tsx:18-24 | the start button and the leaderboard button never lead to the same route |
| QuizDisplay.MatchTake | frontend/src/App.tsx:100 | a route read as `/quiz/:id/take` yields a non-empty id free of '/', '?', '#' and '%', whose take route is that path |
| QuizDisplay.TakePathRoundTrip | frontend/src/components/QuizDisplay.tsx:19 | the take route of an id reads back as that id exactly when the id is non-empty and free of '/', '?', '#' and '%', the characters a URL path segment does not carry back unchanged |
| QuizDisplay.ShareUrlOpensQuiz | frontend/src/components/QuizDisplay.tsx:27 | the shared link, on the same origin, opens the quiz it was made for, when that quiz's id is a path segment the router keeps unchanged |
| QuizDisplay.QueryInIdIsNotRead | frontend/src/App.tsx:100 | an id holding '?' gives a take route that the `/quiz/:id/take` pattern does not read back |
| QuizDisplay.PreviewNext | frontend/src/components/QuizDisplay.tsx:47-51 | Next advances only before the last question |
| QuizDisplay.PreviewPrevious | frontend/src/components/QuizDisplay.tsx:52-56 | Previous steps back only after the first question |
| QuizDisplay.NextDisabled | frontend/src/components/QuizDisplay.tsx:186 | on a question position, Next is disabled exactly when pressing it would not move |
| QuizDisplay.PreviousDisabled | frontend/src/components/QuizDisplay.tsx:179 | on a question position, Previous is disabled exactly when pressing it would not move |
| QuizDisplay.PreviewStaysInRange | frontend/src/components/QuizDisplay.tsx:45-186 | the preview index stays on a question, each button is disabled exactly when pressing it does nothing, and Previous undoes Next |
| QuizDisplay.Highlights | frontend/src/components/QuizDisplay.tsx:164-167 | an option is highlighted exactly when it is the correct index |
| QuizDisplay.OneHighlight | frontend/src/components/QuizDisplay.tsx:164-167 | exactly one option is highlighted when the correct index is in range, none otherwise |
| QuizDisplay.ShowsLeaderboardButton | frontend/src/components/QuizDisplay.tsx:126 | for a non-negative stored count, the leaderboard button shows exactly when the participant total is positive |
| QuizDisplay.LeaderboardButtonMatchesTile | frontend/src/components/QuizDisplay.tsx:91-126 | for a non-negative stored count, the leaderboard button shows exactly when the participants tile is positive |
| QuizDisplay.QuizTiles | frontend/src/components/QuizDisplay.tsx:87-91 | the tiles show the question count and the participant total |
| Navbar.Split | frontend/src/components/Navbar.tsx:24 | `split(" ")` yields at least one piece and no piece holds a space |
| Navbar.SplitJoinRoundTrip | frontend/src/components/Navbar.tsx:24 | joining the pieces with single spaces gives the name back |
| Navbar.FirstCharsAreWordStarts | frontend/src/components/Navbar.tsx:23-26 | the first characters of the pieces are exactly the characters that start a word |
| Navbar.Upper | frontend/src/components/Navbar.tsx:27 | `toUpperCase` keeps the length and maps each character on its own: ASCII lower-case letters to upper case, everything else unchanged |
| Navbar.Take2 | frontend/src/components/Navbar.tsx:28 | `slice(0, 2)` is the prefix of length two, or the whole text when it is shorter |
| Navbar.Initials | frontend/src/components/Navbar.tsx:22-29 | the initials are at most two characters |
| Navbar.InitialsAreFirstWordStarts | frontend/src/components/Navbar.tsx:22-29 | the initials are the first two word-starting characters, upper-cased, and never a space |
| Navbar.InitialsSkipExtraSpaces | frontend/src/components/Navbar.tsx:22-29 | " a  b" gives "AB": empty pieces contribute nothing |
| Navbar.InitialsKeepTwo | frontend/src/components/Navbar.tsx:22-29 | "a b c" gives "AB" |
| Navbar.Render | frontend/src/components/Navbar.tsx:19-29 | nothing is rendered without a user; otherwise the name and `getInitials` of that name, at most two characters |

## Left out

- Network requests, browser storage, toasts, navigation, timers and the clock. A request's outcome, the stored user and `JSON.parse` are inputs instead. `completedAt` and the completion times shown on the boards are not modelled.
- Floating point. Percentages and averages are exact rationals rounded by `Math.round`'s rule. Where the source divides by zero (`NaN`, `Infinity`), the value is `None`, except in colour bands, whose comparisons are modelled.
- Upper-casing, `trim` and character codes use ASCII letters and the ECMAScript whitespace set on UTF-16 code units. Unicode case mapping beyond ASCII and surrogate pairs are not modelled.
- The generator request itself: the prompt, the endpoint, the envelope path to the reply text (an input: the text, or "" when a step is missing), and questions whose array holds non-object elements.
- The progress bar, the QR code, the share and clipboard texts, loading spinners during a request, `getRankBadgeVariant` (defined but never used), and the authentication, signup, hero and app-shell components.
- The ResultsPage `if (id)` guard: the router always supplies an id, so a missing one is not modelled.
- The LeaderboardPage `if (id)` guard (LeaderboardPage.tsx:36): for the same reason, a missing route id is not modelled.
- Absent ids inside template strings: an absent id is the empty string here, so a quiz with neither `_id` nor `id` gets the route "/quiz//take", where the browser writes "/quiz/undefined/take". Neither matches a quiz.
- A stored user that is the text "null": it parses to `null`, which the taking component's `userObj._id` rejects (modelled as unparseable) but the creator's `user?._id` accepts as no user. One stored-user value cannot be both, so the creator's case is not modelled.
- A generator reply whose `questions` is a non-array with a length of ten (a ten-character string): it passes the length check and then fails in `.map`, a generation failure. The model reads only arrays as questions.
- QuizTaker.Select: requires the current index to be a slot; the option buttons exist only on the question screen, where it is.
- QuizTaker.Advance: requires no more answer slots than questions; with more, the source's reduce reads past the question list and throws.
- Grading.Score: requires no more answers than questions, for the same reason.
- Review.OptionLabel: requires the code 65 + i to be a single UTF-16 code unit below the surrogate range; labels beyond it are not modelled.
- Review.CorrectRowsEqualScore: requires no more answers than questions, as Grading.Score does.
- QuizDisplay.LeaderboardButtonMatchesTile: states the match for non-negative counts only; for a negative count and a non-empty list it shows the mismatch instead.
- QuizDisplay.ShowsLeaderboardButton: states the match with the participant total for non-negative counts only, as QuizDisplay.LeaderboardButtonMatchesTile does.
- QuizDisplay.NextDisabled: states the match with the index change for indices on a question only, the only ones the preview reaches.
- QuizDisplay.PreviousDisabled: states the match with the index change for non-negative indices only, the only ones the preview reaches.
- QuizDisplay.ShareUrlOpensQuiz: promises the reopening only for ids free of '/', '?', '#' and '%'. QuizDisplay.tsx:27 does not escape the id, so in the source a '?' or '#' cuts the path short and a '%' is decoded by the router, and such a link opens another route or another id.
- QuizDisplay.MatchRoute: reads no segment holding '%'. The router's percent-decoding of `:id` is not modelled, so an escaped id is not read back as the id it encodes.
- Navbar.Render: a user without `username` is shown with empty initials. In the source `getInitials(user.username)` (Navbar.tsx:23-24, :85) throws on `undefined`, and since the bar is mounted outside the routes (App.tsx:91) the whole app goes blank; the model does not represent that crash.
- QuizTaker.LoginSucceeded: an account without `username` gives the empty player name, which the name check then refuses. In the source `setPlayerName(userObj.username)` (QuizTaker.tsx:195) stores `undefined`, and `playerName.trim()` (QuizTaker.tsx:56) throws instead; the model does not represent that crash.
- QuizCreator.FencedReplyParsesBody: requires the trimmed body not to begin with a fence itself, since the cleanup strips only one fence.
- QuizCreator.StripPlainFence: requires the body not to begin with "json", which the "```json" test would take.

=== FILE: aggregates.dfy ===
/** Statistics computed over a list of attempt results: sums, the high score,
    the two different averages the pages display, and the decimal text of the
    one-decimal average. Nothing here reorders a list. */
module Aggregates {
  import opened Entities
  import opened Grading

  /** `results.reduce((sum, r) => sum + r.score, 0)`. */
  function SumScores(rs: seq<AttemptResult>): nat
    decreases |rs|
  {
    if |rs| == 0 then 0 else SumScores(rs[..|rs| - 1]) + rs[|rs| - 1].score
  }

  /** The high score: `Math.max(...results.map(r => r.score))` for a non-empty
      list, 0 for an empty one. */
  function HighScore(rs: seq<AttemptResult>): (h: nat)
    ensures forall i :: 0 <= i < |rs| ==> rs[i].score <= h
    ensures |rs| > 0 ==> exists i :: 0 <= i < |rs| && rs[i].score == h
    ensures |rs| == 0 ==> h == 0
    decreases |rs|
  {
    if |rs| == 0 then 0
    else if |rs| == 1 then rs[0].score
    else
      var rest := HighScore(rs[..|rs| - 1]);
      if rs[|rs| - 1].score > rest then rs[|rs| - 1].score else rest
  }

  /** No score exceeds the high score, so their sum is at most count times it. */
  lemma {:induction false} SumAtMostCountTimesHigh(rs: seq<AttemptResult>)
    ensures SumScores(rs) <= |rs| * HighScore(rs)
    decreases |rs|
  {
    if |rs| > 0 {
      var prefix := rs[..|rs| - 1];
      SumAtMostCountTimesHigh(prefix);
      assert HighScore(prefix) <= HighScore(rs) by {
        if |prefix| > 0 {
          var i :| 0 <= i < |prefix| && prefix[i].score == HighScore(prefix);
          assert rs[i] == prefix[i];
        }
      }
      var a, hp, h := |prefix|, HighScore(prefix), HighScore(rs);
      assert SumScores(rs) == SumScores(prefix) + rs[a].score;
      assert rs[a].score <= h;
      MulMonotone(a, hp, h);
      MulSucc(a, h);
    }
  }

  lemma MulSucc(a: nat, h: nat)
    ensures (a + 1) * h == a * h + h
  {
  }

  lemma MulMonotone(a: nat, b: nat, c: nat)
    requires b <= c
    ensures a * b <= a * c
  {
  }

  /** `r.score / r.totalQuestions * 100` on exact rationals. */
  function PercentValue(r: AttemptResult): real
    requires r.totalQuestions > 0
  {
    r.score as real / r.totalQuestions as real * 100.0
  }

  /** `results.reduce((acc, r) => acc + r.score / r.totalQuestions * 100, 0)`. */
  function SumPercent(rs: seq<AttemptResult>): real
    requires AllScored(rs)
    decreases |rs|
  {
    if |rs| == 0 then 0.0 else SumPercent(rs[..|rs| - 1]) + PercentValue(rs[|rs| - 1])
  }

  /** The percentage average of the leaderboard page and the dashboard: the
      rounded mean of the per-result percentages, 0 for an empty list. */
  function MeanPercent(rs: seq<AttemptResult>): (m: int)
    requires AllScored(rs)
    ensures |rs| == 0 ==> m == 0
    ensures |rs| > 0 ==> m as real - 0.5 <= SumPercent(rs) / |rs| as real < m as real + 0.5
  {
    if |rs| > 0 then Round(SumPercent(rs) / |rs| as real) else 0
  }

  lemma PercentValueInRange(r: AttemptResult)
    requires 0 < r.totalQuestions && r.score <= r.totalQuestions
    ensures 0.0 <= PercentValue(r) <= 100.0
  {
    var x := r.score as real / r.totalQuestions as real;
    assert x * r.totalQuestions as real == r.score as real;
  }

  lemma {:induction false} SumPercentInRange(rs: seq<AttemptResult>)
    requires AllScored(rs) && AllWithinTotal(rs)
    ensures 0.0 <= SumPercent(rs) <= 100.0 * |rs| as real
    decreases |rs|
  {
    if |rs| > 0 {
      SumPercentInRange(rs[..|rs| - 1]);
      PercentValueInRange(rs[|rs| - 1]);
    }
  }

  /** When every score is within its total, the percentage average lies in 0..100. */
  lemma MeanPercentInRange(rs: seq<AttemptResult>)
    requires AllScored(rs) && AllWithinTotal(rs)
    ensures 0 <= MeanPercent(rs) <= 100
  {
    if |rs| > 0 {
      SumPercentInRange(rs);
      var n := |rs| as real;
      var m := SumPercent(rs) / n;
      DivideBound(SumPercent(rs), n);
      RoundMonotone(0.0, m);
      RoundMonotone(m, 100.0);
      RoundOfInteger(0);
      RoundOfInteger(100);
    }
  }

  /** A total of at most 100 per part, shared among `n` parts, is at most
      100 per part. */
  lemma DivideBound(s: real, n: real)
    requires n > 0.0 && 0.0 <= s <= 100.0 * n
    ensures 0.0 <= s / n <= 100.0
  {
    var x := s / (100.0 * n);
    Grading.RatioAtMostOne(s, 100.0 * n);
    assert x * (100.0 * n) == s;
    Grading.QuotientOfProduct(100.0 * x, n, s);
  }

  /** With a common question count `total`, the sum of percentages is the sum
      of scores scaled by `100 / total`. */
  lemma {:induction false} SumPercentUniformTotal(rs: seq<AttemptResult>, total: nat)
    requires total > 0
    requires forall i :: 0 <= i < |rs| ==> rs[i].totalQuestions == total
    ensures AllScored(rs)
    ensures SumPercent(rs) == SumScores(rs) as real / total as real * 100.0
    decreases |rs|
  {
    if |rs| > 0 {
      var prefix := rs[..|rs| - 1];
      SumPercentUniformTotal(prefix, total);
      assert SumScores(rs) == SumScores(prefix) + rs[|rs| - 1].score;
      ScaledSum(SumScores(prefix) as real, rs[|rs| - 1].score as real, total as real);
    }
  }

  lemma ScaledSum(a: real, b: real, t: real)
    requires t > 0.0
    ensures (a + b) / t * 100.0 == a / t * 100.0 + b / t * 100.0
  {
  }

  /** The two averages agree when every result has the same question count:
      the mean of percentages is then the percentage of the mean raw score. */
  lemma MeanPercentUniformTotal(rs: seq<AttemptResult>, total: nat)
    requires total > 0 && |rs| > 0
    requires forall i :: 0 <= i < |rs| ==> rs[i].totalQuestions == total
    ensures AllScored(rs)
    ensures MeanPercent(rs) == Round(SumScores(rs) as real / |rs| as real / total as real * 100.0)
  {
    SumPercentUniformTotal(rs, total);
    DivisionsCommute(SumScores(rs) as real, |rs| as real, total as real);
  }

  lemma DivisionsCommute(s: real, n: real, t: real)
    requires n > 0.0 && t > 0.0
    ensures (s / t * 100.0) / n == s / n / t * 100.0
  {
    var m := s / n;
    var v := m / t * 100.0;
    assert m * n == s;
    assert v * t == m * 100.0;
    assert v * n * t == s * 100.0;
    assert v * n == s / t * 100.0;
  }

  /** The raw-score average of the quiz-result leaderboard in tenths:
      `Math.round(sum / count * 10)`, which the page divides by 10 and prints
      with one decimal. */
  function AverageTenths(rs: seq<AttemptResult>): (t: int)
    requires |rs| > 0
    ensures t == (20 * SumScores(rs) + |rs|) / (2 * |rs|)
  {
    assert SumScores(rs) as real / |rs| as real * 10.0 == (10 * SumScores(rs)) as real / |rs| as real;
    Grading.RoundOfRatio(10 * SumScores(rs), |rs|);
    Round(SumScores(rs) as real / |rs| as real * 10.0)
  }

  /** The average never exceeds the high score (and is never negative). */
  lemma AverageAtMostHigh(rs: seq<AttemptResult>)
    requires |rs| > 0
    ensures 0 <= AverageTenths(rs) <= 10 * HighScore(rs)
  {
    SumAtMostCountTimesHigh(rs);
    var k, h := |rs|, HighScore(rs);
    CastProduct(k, h);
    MeanAtMost(SumScores(rs) as real, k as real, h as real);
    var m := SumScores(rs) as real / k as real;
    assert 0.0 <= m * 10.0 <= (10 * h) as real;
    RoundMonotone(0.0, m * 10.0);
    RoundMonotone(m * 10.0, (10 * h) as real);
    RoundOfInteger(0);
    RoundOfInteger(10 * h);
  }

  lemma CastProduct(a: int, b: int)
    ensures (a * b) as real == a as real * b as real
  {
  }

  /** A mean is at most the bound every element is below. */
  lemma MeanAtMost(total: real, n: real, h: real)
    requires n > 0.0 && 0.0 <= total <= n * h
    ensures 0.0 <= total / n <= h
  {
    var m := total / n;
    assert m * n == total;
    if h < m {
      Grading.ScaleLt(h, m, n);
    }
  }

  /** The text of the Avg Score tile: "0.0" for an empty list, otherwise the
      mean score rounded to one decimal, read back as a number of tenths. */
  function AverageText(rs: seq<AttemptResult>): (s: string)
    ensures |rs| == 0 ==> s == "0.0"
    ensures |s| >= 3 && s[|s| - 2] == '.'
    ensures |rs| > 0 ==> ReadTenths(s) == (20 * SumScores(rs) + |rs|) / (2 * |rs|)
  {
    if |rs| > 0 then
      AverageAtMostHigh(rs);
      var t := AverageTenths(rs) as nat;
      FormatTenthsRoundTrip(t);
      FormatTenths(t)
    else "0.0"
  }

  function DigitChar(d: nat): char
    requires d < 10
  {
    ('0' as int + d) as char
  }

  function DigitValue(c: char): nat {
    if '0' <= c <= '9' then (c as int - '0' as int) as nat else 0
  }

  /** Decimal notation of a natural number, without leading zeros. */
  function NatToString(n: nat): (s: string)
    ensures |s| >= 1
    ensures forall i :: 0 <= i < |s| ==> '0' <= s[i] <= '9'
    ensures |s| > 1 ==> s[0] != '0'
    decreases n
  {
    if n < 10 then [DigitChar(n)] else NatToString(n / 10) + [DigitChar(n % 10)]
  }

  /** The value a string of decimal digits denotes. */
  function DigitsValue(s: string): nat
    decreases |s|
  {
    if |s| == 0 then 0 else DigitsValue(s[..|s| - 1]) * 10 + DigitValue(s[|s| - 1])
  }

  /** Reading the decimal notation back gives the number. */
  lemma {:induction false} NatToStringRoundTrip(n: nat)
    ensures DigitsValue(NatToString(n)) == n
    decreases n
  {
    if n >= 10 {
      NatToStringRoundTrip(n / 10);
      var s := NatToString(n);
      assert s[..|s| - 1] == NatToString(n / 10);
      assert DigitValue(s[|s| - 1]) == n % 10;
      assert DigitsValue(s) == (n / 10) * 10 + n % 10;
    }
  }

  /** `(t / 10).toFixed(1)` for a whole number of tenths `t`. */
  function FormatTenths(t: nat): (s: string)
    ensures |s| >= 3 && s[|s| - 2] == '.'
  {
    NatToString(t / 10) + "." + [DigitChar(t % 10)]
  }

  /** The number of tenths a one-decimal text denotes: the digits before the
      point, times ten, plus the digit after it. */
  function ReadTenths(s: string): nat
    requires |s| >= 2
  {
    DigitsValue(s[..|s| - 2]) * 10 + DigitValue(s[|s| - 1])
  }

  /** The one-decimal text reads back as the number of tenths it was made
      from: whole part, point, one digit. */
  lemma FormatTenthsRoundTrip(t: nat)
    ensures var s := FormatTenths(t);
      && s[..|s| - 2] == NatToString(t / 10)
      && '0' <= s[|s| - 1] <= '9'
      && ReadTenths(s) == t
  {
    var s := FormatTenths(t);
    assert s[..|s| - 2] == NatToString(t / 10);
    NatToStringRoundTrip(t / 10);
  }
}

=== FILE: dashboard.dfy ===
/** The signed-in user's dashboard: the quizzes they created and the results
    they earned, fetched together, with three tiles and two lists. */
module Dashboard {
  import opened Wrappers
  import opened Entities
  import opened Grading
  import opened Aggregates

  /** The signed-in user handed to the page, if any. */
  datatype User = User(username: string, mongoId: string)

  /** A list section: a spinner until the requests settle, the empty-state
      text, or the entries. */
  datatype Section<T> = Spinner | NothingYet | Entries(items: seq<T>)

  /** A created quiz's card: topic, participant count, question count. */
  datatype QuizCard = QuizCard(topic: string, participants: int, questionCount: nat)

  /** An attended result's card: topic, raw score, percentage and its band. */
  datatype ResultCard = ResultCard(topic: string, score: nat, total: nat, percent: Option<int>, band: Band)

  datatype DashboardView = DashboardView(
    loginPrompt: bool,            // "Please log in to view the dashboard."
    created: nat,                 // the Quizzes Created tile
    attended: nat,                // the Quizzes Attended tile
    average: Option<int>,         // the Avg Score tile; None where the browser shows a non-number
    createdSection: Section<QuizCard>,
    resultSection: Section<ResultCard>)

  /** What the page holds once its requests have settled: no requests are
      made without both a user and a token, and a failure of either request
      empties both lists. A request that succeeds with no body leaves a
      missing list, whose `length` the render cannot read. */
  datatype Loaded = NotRequested | Lists(quizzes: seq<Quiz>, results: seq<AttemptResult>) | MissingList

  function LoadLists(user: Option<User>, authToken: string,
                     quizFetch: Fetch<seq<Quiz>>, resultFetch: Fetch<seq<AttemptResult>>): (l: Loaded)
    ensures l == NotRequested <==> user.None? || authToken == ""
    ensures l.Lists? && (quizFetch.FetchFailed? || resultFetch.FetchFailed?) ==> l == Lists([], [])
    ensures l.Lists? && quizFetch.Loaded? && resultFetch.Loaded? ==>
      quizFetch.body.Some? && resultFetch.body.Some?
      && l == Lists(quizFetch.body.value, resultFetch.body.value)
    ensures l == MissingList <==>
      user.Some? && authToken != "" && quizFetch.Loaded? && resultFetch.Loaded?
      && (quizFetch.body.None? || resultFetch.body.None?)
  {
    if user.None? || authToken == "" then NotRequested
    else
      match (quizFetch, resultFetch)
      case (FetchFailed, _) => Lists([], [])
      case (_, FetchFailed) => Lists([], [])
      case (Loaded(Some(qs)), Loaded(Some(rs))) => Lists(qs, rs)
      case (Loaded(_), Loaded(_)) => MissingList
  }

  function CardOf(q: Quiz): (c: QuizCard)
    ensures c.topic == q.topic && c.participants == ParticipantTotal(q) && c.questionCount == |q.questions|
  {
    QuizCard(q.topic, ParticipantTotal(q), |q.questions|)
  }

  /** A result card: the result's topic and score, and its percentage and
      colour band, the percentage absent for a result with no questions. */
  function ResultCardOf(r: AttemptResult): (c: ResultCard)
    ensures c.topic == r.topic && c.score == r.score && c.total == r.totalQuestions
    ensures c.percent.Some? <==> r.totalQuestions > 0
    ensures c.percent.Some? ==> c.band == ScoreColor(c.percent.value)
    ensures r.totalQuestions == 0 ==> (c.band == Emerald <==> r.score > 0)
    ensures r.totalQuestions == 0 ==> (c.band == Red <==> r.score == 0)
    ensures c.percent == ResultPercent(r) && c.band == ResultBand(r)
  {
    ResultCard(r.topic, r.score, r.totalQuestions, ResultPercent(r), ResultBand(r))
  }

  /** `result.topic ? <card/> : null`: results without a topic are skipped. */
  function ListedResults(rs: seq<AttemptResult>): (cards: seq<ResultCard>)
    ensures |cards| <= |rs|
    ensures forall c :: c in cards ==> c.topic != ""
    decreases |rs|
  {
    if |rs| == 0 then []
    else (if rs[0].topic != "" then [ResultCardOf(rs[0])] else []) + ListedResults(rs[1..])
  }

  /** Results with a topic, in their original order: the reference the
      listed cards are checked against. */
  function WithTopic(rs: seq<AttemptResult>): (kept: seq<AttemptResult>)
    ensures |kept| <= |rs|
    decreases |rs|
  {
    if |rs| == 0 then []
    else (if rs[0].topic != "" then [rs[0]] else []) + WithTopic(rs[1..])
  }

  /** A result is kept exactly when it is in the list and has a topic. */
  lemma {:induction false} WithTopicMembers(rs: seq<AttemptResult>)
    ensures forall r :: r in WithTopic(rs) <==> r in rs && r.topic != ""
    decreases |rs|
  {
    if |rs| > 0 {
      WithTopicMembers(rs[1..]);
      assert rs == [rs[0]] + rs[1..];
    }
  }

  /** The listed cards are exactly the results with a topic, in order; all
      results are listed exactly when every one has a topic. */
  lemma ListedResultsAreTopicFilter(rs: seq<AttemptResult>)
    ensures |ListedResults(rs)| == |WithTopic(rs)|
    ensures forall i :: 0 <= i < |WithTopic(rs)| ==> ListedResults(rs)[i] == ResultCardOf(WithTopic(rs)[i])
    ensures |ListedResults(rs)| == |rs| <==> forall i :: 0 <= i < |rs| ==> rs[i].topic != ""
  {
    CardsFollowTopicFilter(rs);
    WithTopicKeepsAll(rs);
  }

  lemma {:induction false} CardsFollowTopicFilter(rs: seq<AttemptResult>)
    ensures |ListedResults(rs)| == |WithTopic(rs)|
    ensures forall i :: 0 <= i < |WithTopic(rs)| ==> ListedResults(rs)[i] == ResultCardOf(WithTopic(rs)[i])
    decreases |rs|
  {
    if |rs| > 0 {
      var tail := rs[1..];
      CardsFollowTopicFilter(tail);
      if rs[0].topic != "" {
        assert ListedResults(rs) == [ResultCardOf(rs[0])] + ListedResults(tail);
        assert WithTopic(rs) == [rs[0]] + WithTopic(tail);
      }
    }
  }

  /** The topic filter keeps every result exactly when each has a topic. */
  lemma {:induction false} WithTopicKeepsAll(rs: seq<AttemptResult>)
    ensures |WithTopic(rs)| == |rs| <==> forall i :: 0 <= i < |rs| ==> rs[i].topic != ""
    decreases |rs|
  {
    if |rs| > 0 {
      var tail := rs[1..];
      WithTopicKeepsAll(tail);
      assert forall i :: 0 <= i < |tail| ==> tail[i] == rs[i + 1];
    }
  }

  function Sectioned<T>(items: seq<T>): (s: Section<T>)
    ensures s == NothingYet <==> |items| == 0
    ensures s.Entries? ==> s.items == items
  {
    if |items| == 0 then NothingYet else Entries(items)
  }

  /** The render. `None` is the render error of a missing list. */
  function ShowDashboard(user: Option<User>, loaded: Loaded): (v: Option<DashboardView>)
    ensures v.None? <==> loaded == MissingList
    ensures v.Some? ==> v.value.loginPrompt == user.None?
    ensures loaded == NotRequested ==>
      v == Some(DashboardView(user.None?, 0, 0, Some(0), Spinner, Spinner))
    ensures loaded.Lists? ==>
      && v.value.created == |loaded.quizzes|
      && v.value.attended == |loaded.results|
      && (v.value.average.Some? <==> AllScored(loaded.results))
      && (AllScored(loaded.results) ==> v.value.average == Some(MeanPercent(loaded.results)))
      && (|loaded.results| == 0 ==> v.value.average == Some(0))
      && (v.value.createdSection == NothingYet <==> |loaded.quizzes| == 0)
      && (v.value.resultSection == NothingYet <==> |loaded.results| == 0)
      && (|loaded.results| > 0 ==> v.value.resultSection == Entries(ListedResults(loaded.results)))
  {
    match loaded
    case MissingList => None
    case NotRequested => Some(DashboardView(user.None?, 0, 0, Some(0), Spinner, Spinner))
    case Lists(qs, rs) =>
      var cards := seq(|qs|, i requires 0 <= i < |qs| => CardOf(qs[i]));
      var resultSection :=
        if |rs| == 0 then NothingYet else Entries(ListedResults(rs));
      Some(DashboardView(
        user.None?, |qs|, |rs|,
        if AllScored(rs) then Some(MeanPercent(rs)) else None,
        Sectioned(cards), resultSection))
  }

  /** The Avg Score tile averages every attended result, including the ones
      whose card is hidden for lacking a topic: giving topics to results
      does not move it. With scores within totals it lies in 0..100. */
  lemma AverageIgnoresTopics(user: Option<User>, qs: seq<Quiz>, rs: seq<AttemptResult>, topics: seq<string>)
    requires |topics| == |rs| && AllScored(rs)
    ensures var relabelled := seq(|rs|, i requires 0 <= i < |rs| => rs[i].(topic := topics[i]));
      ShowDashboard(user, Lists(qs, rs)).value.average == ShowDashboard(user, Lists(qs, relabelled)).value.average
    ensures AllWithinTotal(rs) ==>
      var avg := ShowDashboard(user, Lists(qs, rs)).value.average;
      avg.Some? && 0 <= avg.value <= 100
  {
    var relabelled := seq(|rs|, i requires 0 <= i < |rs| => rs[i].(topic := topics[i]));
    SumPercentIgnoresTopics(rs, relabelled);
    if AllWithinTotal(rs) {
      MeanPercentInRange(rs);
    }
  }

  lemma {:induction false} SumPercentIgnoresTopics(a: seq<AttemptResult>, b: seq<AttemptResult>)
    requires |a| == |b| && AllScored(a)
    requires forall i :: 0 <= i < |a| ==>
      a[i].score == b[i].score && a[i].totalQuestions == b[i].totalQuestions
    ensures AllScored(b) && SumPercent(a) == SumPercent(b)
    decreases |a|
  {
    if |a| > 0 {
      SumPercentIgnoresTopics(a[..|a| - 1], b[..|b| - 1]);
    }
  }

  /** The created-quiz cards show each quiz's participant total: the count
      the backend keeps when it is positive, else the list length. */
  lemma CreatedCardsCount(user: Option<User>, qs: seq<Quiz>, rs: seq<AttemptResult>)
    ensures var v := ShowDashboard(user, Lists(qs, rs)).value;
      |qs| > 0 ==>
        && v.createdSection.Entries? && |v.createdSection.items| == |qs|
        && forall i :: 0 <= i < |qs| ==>
             && v.createdSection.items[i].topic == qs[i].topic
             && v.createdSection.items[i].questionCount == |qs[i].questions|
             && (qs[i].participantCount > 0 ==> v.createdSection.items[i].participants == qs[i].participantCount)
             && (qs[i].participantCount == 0 ==> v.createdSection.items[i].participants == |qs[i].participants|)
  {
  }
}

=== FILE: entities.dfy ===
/** The records the components pass around. The frontend types them all as
    `any`; these datatypes fix the fields the modelled logic reads. A string
    field the backend may omit is modelled as the empty string, which is the
    falsy value every `||` and `!x` test in the components treats it as. */
module Entities {
  import opened Wrappers
  import opened Text

  /** One multiple-choice question. The generator is asked for four options
      and an index 0..3, but nothing validates either, so any option list and
      any integer index are representable. `id` is the 1-based number the
      creator assigns. */
  datatype Question = Question(id: nat, text: string, options: seq<string>, correctAnswer: int)

  /** A stored quiz. `mongoId` is the backend's `_id`, `id` the alternative
      key some payloads carry. An absent `participantCount` behaves as 0 and an
      absent `participants` array as an empty one in every place they are read. */
  datatype Quiz = Quiz(
    mongoId: string,
    id: string,
    topic: string,
    questions: seq<Question>,
    participantCount: int,
    participants: seq<string>,
    createdBy: string)

  /** One finished attempt, as the taker reports it and as the backend lists
      it. `answers[i]` is the option chosen for question `i` (`None` = `null`). */
  datatype AttemptResult = AttemptResult(
    playerName: string,
    topic: string,
    score: nat,
    totalQuestions: nat,
    answers: seq<Option<nat>>)

  /** The user object kept in browser storage under the key `user`, as read at
      one moment: missing, not valid JSON, or parsed into its fields. */
  datatype StoredUser = Missing | Unparseable | Stored(username: string, mongoId: string, id: string)

  /** `quiz._id || quiz.id` (frontend/src/components/QuizDisplay.tsx:16). */
  function QuizId(q: Quiz): (id: string)
    ensures q.mongoId != "" ==> id == q.mongoId
    ensures q.mongoId == "" ==> id == q.id
    ensures id == "" <==> q.mongoId == "" && q.id == ""
  {
    Or(q.mongoId, q.id)
  }

  /** `userObj._id || userObj.id` (frontend/src/components/QuizTaker.tsx:109). */
  function UserId(u: StoredUser): (id: string)
    requires u.Stored?
    ensures u.mongoId != "" ==> id == u.mongoId
    ensures u.mongoId == "" ==> id == u.id
    ensures id == "" <==> u.mongoId == "" && u.id == ""
  {
    Or(u.mongoId, u.id)
  }

  /** `quiz.participantCount || quiz.participants?.length || 0`: the count the
      backend keeps when it is non-zero, else the length of the participants
      list. */
  function ParticipantTotal(q: Quiz): (r: int)
    ensures q.participantCount != 0 ==> r == q.participantCount
    ensures q.participantCount == 0 ==> r == |q.participants|
  {
    if q.participantCount != 0 then q.participantCount
    else if |q.participants| != 0 then |q.participants|
    else 0
  }

  /** Every result has a positive question count, so its percentage is a
      number (JavaScript gives NaN or Infinity otherwise). */
  predicate AllScored(rs: seq<AttemptResult>) {
    forall i :: 0 <= i < |rs| ==> rs[i].totalQuestions > 0
  }

  /** Every result's score is at most its question count. */
  predicate AllWithinTotal(rs: seq<AttemptResult>) {
    forall i :: 0 <= i < |rs| ==> rs[i].score <= rs[i].totalQuestions
  }
}

=== FILE: grading.dfy ===
/** Scoring and percentages, shared by the taker, the leaderboards, the results
    page and the dashboard. `Math.round` is modelled on exact rationals:
    floating-point representation error is not part of the model. */
module Grading {
  import opened Wrappers
  import opened Entities

  /** `answer === question.correctAnswer`: a `null` slot matches nothing. */
  predicate Matches(answer: Option<nat>, correct: int) {
    answer.Some? && answer.value as int == correct
  }

  /** The taker's `answers.reduce(...)`: one point for every slot equal to the
      correct index of the question at the same position. Only the answer
      slots are visited, so there may be more questions than slots. */
  function Score(answers: seq<Option<nat>>, qs: seq<Question>): (r: nat)
    requires |answers| <= |qs|
    ensures r <= |answers|
    ensures r == |answers| ==> forall i :: 0 <= i < |answers| ==> Matches(answers[i], qs[i].correctAnswer)
    decreases |answers|
  {
    if |answers| == 0 then 0
    else
      var k := |answers| - 1;
      Score(answers[..k], qs) + (if Matches(answers[k], qs[k].correctAnswer) then 1 else 0)
  }

  /** The positions the participant got right: the reference definition of the score. */
  ghost function CorrectPositions(answers: seq<Option<nat>>, qs: seq<Question>): set<nat>
    requires |answers| <= |qs|
  {
    set i: nat | i < |answers| && Matches(answers[i], qs[i].correctAnswer)
  }

  /** The score is the number of correctly answered positions. */
  lemma {:induction false} ScoreCountsCorrectPositions(answers: seq<Option<nat>>, qs: seq<Question>)
    requires |answers| <= |qs|
    ensures Score(answers, qs) == |CorrectPositions(answers, qs)|
    decreases |answers|
  {
    if |answers| > 0 {
      var k := |answers| - 1;
      var prefix := answers[..k];
      ScoreCountsCorrectPositions(prefix, qs);
      var before := CorrectPositions(prefix, qs);
      var now := CorrectPositions(answers, qs);
      if Matches(answers[k], qs[k].correctAnswer) {
        assert now == before + {k};
        assert k !in before;
      } else {
        assert now == before;
      }
    }
  }

  /** The score depends on each slot only through whether it matches. */
  lemma {:induction false} ScoreOfCorrectnessOnly(a: seq<Option<nat>>, b: seq<Option<nat>>, qs: seq<Question>)
    requires |a| == |b| <= |qs|
    requires forall i :: 0 <= i < |a| ==>
      (Matches(a[i], qs[i].correctAnswer) <==> Matches(b[i], qs[i].correctAnswer))
    ensures Score(a, qs) == Score(b, qs)
    decreases |a|
  {
    if |a| > 0 {
      ScoreOfCorrectnessOnly(a[..|a| - 1], b[..|b| - 1], qs);
    }
  }

  /** `Math.round(x)`: the nearest integer, halves rounded up. */
  function Round(x: real): (r: int)
    ensures r as real <= x + 0.5 < r as real + 1.0
  {
    (x + 0.5).Floor
  }

  lemma RoundMonotone(x: real, y: real)
    requires x <= y
    ensures Round(x) <= Round(y)
  {
  }

  lemma RoundOfInteger(k: int)
    ensures Round(k as real) == k
  {
  }

  /** `Math.round(score / total * 100)`. */
  function Percent(score: nat, total: nat): (p: int)
    requires total > 0
    ensures p == (200 * score + total) / (2 * total)
  {
    assert score as real / total as real * 100.0 == (100 * score) as real / total as real;
    RoundOfRatio(100 * score, total);
    Round(score as real / total as real * 100.0)
  }

  /** The percentage of a score within its total lies in 0..100, reaching 0
      and 100 exactly for no and all correct answers. */
  lemma PercentInRange(score: nat, total: nat)
    requires 0 < total && score <= total
    ensures 0 <= Percent(score, total) <= 100
    ensures score == 0 ==> Percent(score, total) == 0
    ensures score == total ==> Percent(score, total) == 100
  {
    var x := score as real / total as real;
    RatioAtMostOne(score as real, total as real);
    RoundMonotone(0.0, x * 100.0);
    RoundMonotone(x * 100.0, 100.0);
    RoundOfInteger(0);
    RoundOfInteger(100);
  }

  /** `Math.round(n / d)` for integers `n` and `d > 0` is `(2n + d) div 2d`. */
  lemma RoundOfRatio(n: int, d: int)
    requires d > 0
    ensures Round(n as real / d as real) == (2 * n + d) / (2 * d)
  {
    var m := 2 * d;
    var a := 2 * n + d;
    var q, r := a / m, a % m;
    // n/d + 1/2 is a/m, which is q plus a fraction in [0, 1)
    HalfAsRatio(n, d);
    SplitRatio(a, m, q, r);
    FloorOfFraction(q, r as real / m as real);
  }

  lemma RatioAtMostOne(s: real, t: real)
    requires 0.0 <= s <= t && t > 0.0
    ensures 0.0 <= s / t <= 1.0
    ensures s == t ==> s / t == 1.0
  {
    var x := s / t;
    assert x * t == s;
    if x > 1.0 {
      ScaleLt(1.0, x, t);
    }
    if s == t {
      QuotientOfProduct(1.0, t, s);
    }
  }

  lemma HalfAsRatio(n: int, d: int)
    requires d > 0
    ensures n as real / d as real + 0.5 == (2 * n + d) as real / (2 * d) as real
  {
    var x := n as real / d as real;
    assert x * d as real == n as real;
    assert (x + 0.5) * (2 * d) as real == (2 * n + d) as real;
    QuotientOfProduct(x + 0.5, (2 * d) as real, (2 * n + d) as real);
  }

  lemma QuotientOfProduct(w: real, z: real, y: real)
    requires z != 0.0 && w * z == y
    ensures y / z == w
  {
  }

  lemma SplitRatio(a: int, m: int, q: int, r: int)
    requires m > 0 && a == m * q + r && 0 <= r < m
    ensures a as real / m as real == q as real + r as real / m as real
    ensures 0.0 <= r as real / m as real < 1.0
  {
    assert a as real == m as real * q as real + r as real;
  }

  lemma FloorOfFraction(q: int, f: real)
    requires 0.0 <= f < 1.0
    ensures (q as real + f).Floor == q
  {
  }

  lemma ScaleLt(a: real, b: real, c: real)
    requires a < b && c > 0.0
    ensures a * c < b * c
  {
  }

  /** The colour bands of a percentage (`getScoreColor`), checked in the order
      80, 60, 40. */
  datatype Band = Emerald | Blue | Orange | Red

  function ScoreColor(pct: int): (b: Band)
    ensures b == Emerald <==> 80 <= pct
    ensures b == Blue <==> 60 <= pct < 80
    ensures b == Orange <==> 40 <= pct < 60
    ensures b == Red <==> pct < 40
  {
    if pct >= 80 then Emerald
    else if pct >= 60 then Blue
    else if pct >= 40 then Orange
    else Red
  }

  /** The bands are ordered: a higher percentage never gets a lower band. */
  function BandLevel(b: Band): nat {
    match b
    case Red => 0
    case Orange => 1
    case Blue => 2
    case Emerald => 3
  }

  lemma ScoreColorMonotone(p: int, q: int)
    requires p <= q
    ensures BandLevel(ScoreColor(p)) <= BandLevel(ScoreColor(q))
  {
  }

  /** `Math.round(r.score / r.totalQuestions * 100)` for one result, absent
      for a result with no questions, where the browser shows `NaN` or
      `Infinity`. */
  function ResultPercent(r: AttemptResult): (p: Option<int>)
    ensures p.Some? <==> r.totalQuestions > 0
    ensures p.Some? ==> p.value == (200 * r.score + r.totalQuestions) / (2 * r.totalQuestions)
    ensures r.totalQuestions > 0 && r.score <= r.totalQuestions ==> 0 <= p.value <= 100
  {
    if r.totalQuestions > 0 then
      var p := Percent(r.score, r.totalQuestions);
      assert r.score <= r.totalQuestions ==> 0 <= p <= 100 by {
        if r.score <= r.totalQuestions {
          PercentInRange(r.score, r.totalQuestions);
        }
      }
      Some(p)
    else None
  }

  /** The colour band of one result's percentage. With no questions the
      division is by zero: a positive score gives `Infinity`, which passes
      every threshold, and a zero score gives `NaN`, which passes none. */
  function ResultBand(r: AttemptResult): (b: Band)
    ensures r.totalQuestions > 0 ==> b == ScoreColor(ResultPercent(r).value)
    ensures r.totalQuestions == 0 ==> (b == Emerald <==> r.score > 0)
    ensures r.totalQuestions == 0 ==> (b == Red <==> r.score == 0)
  {
    if r.totalQuestions > 0 then ScoreColor(Percent(r.score, r.totalQuestions))
    else if r.score > 0 then Emerald
    else Red
  }
}

=== FILE: leaderboard.dfy ===
/** The leaderboard shown right after an attempt: the server's list for the
    quiz with the participant's own result merged in, the participant's rank,
    the ranked rows, and the three summary tiles. */
module Leaderboard {
  import opened Wrappers
  import opened Entities
  import opened Grading
  import opened Aggregates
  import opened Ranking
  import opened Review

  /** The merge's notion of "already listed": same player name and same score. */
  predicate SameAttempt(a: AttemptResult, b: AttemptResult) {
    a.playerName == b.playerName && a.score == b.score
  }

  /** `leaderboard.some(...)`, scanning from the front. */
  function Listed(board: seq<AttemptResult>, current: AttemptResult): (b: bool)
    ensures b <==> exists i :: 0 <= i < |board| && SameAttempt(board[i], current)
    decreases |board|
  {
    if |board| == 0 then false
    else SameAttempt(board[0], current) || Listed(board[1..], current)
  }

  /** The participant's result is put in front of the server's list unless an
      entry with the same name and score is already there. */
  function MergeCurrent(fetched: seq<AttemptResult>, current: AttemptResult): (board: seq<AttemptResult>)
    ensures Listed(fetched, current) ==> board == fetched
    ensures !Listed(fetched, current) ==> board == [current] + fetched
  {
    if Listed(fetched, current) then fetched else [current] + fetched
  }

  /** After the merge the server's list is kept whole and in order at the
      end, at most one row is added, and an entry with the participant's name
      and score is always present. Merging again changes nothing. */
  lemma MergeKeepsServerOrder(fetched: seq<AttemptResult>, current: AttemptResult)
    ensures var board := MergeCurrent(fetched, current);
      && |fetched| <= |board| <= |fetched| + 1
      && board[|board| - |fetched|..] == fetched
      && Listed(board, current)
      && MergeCurrent(board, current) == board
  {
    var board := MergeCurrent(fetched, current);
    if !Listed(fetched, current) {
      assert SameAttempt(board[0], current);
    }
  }

  /** The list the component holds once its request has settled. Without a
      `quiz._id` no request is made and the list stays empty; a failed
      request leaves only the participant's result; an empty body counts as an
      empty list. */
  function LoadBoard(quiz: Quiz, response: Fetch<seq<AttemptResult>>, current: AttemptResult): (board: seq<AttemptResult>)
    ensures quiz.mongoId == "" ==> board == []
    ensures quiz.mongoId != "" && response.FetchFailed? ==> board == [current]
    ensures quiz.mongoId != "" && response.Loaded? ==> board == MergeCurrent(response.body.GetOr([]), current)
  {
    if quiz.mongoId == "" then []
    else
      match response
      case FetchFailed => [current]
      case Loaded(body) => MergeCurrent(body.GetOr([]), current)
  }

  /** `findIndex` by player name: the first matching position, or -1. */
  function FindByName(board: seq<AttemptResult>, name: string): (i: int)
    ensures -1 <= i < |board|
    ensures i >= 0 ==> board[i].playerName == name
    ensures i >= 0 ==> forall j :: 0 <= j < i ==> board[j].playerName != name
    ensures i == -1 <==> forall j :: 0 <= j < |board| ==> board[j].playerName != name
    decreases |board|
  {
    if |board| == 0 then -1
    else if board[0].playerName == name then 0
    else
      var rest := FindByName(board[1..], name);
      if rest == -1 then -1 else rest + 1
  }

  /** The rank shown on the personal card: the first row with the
      participant's name, counted from 1, or 0 when no row has it. */
  function UserRank(board: seq<AttemptResult>, current: AttemptResult): (rank: int)
    ensures 0 <= rank <= |board|
    ensures rank >= 1 ==> board[rank - 1].playerName == current.playerName
    ensures forall j :: 0 <= j < |board| && board[j].playerName == current.playerName ==> 1 <= rank <= j + 1
  {
    FindByName(board, current.playerName) + 1
  }

  /** Once the list is loaded for a quiz with an id, the participant has a
      rank, the row at that rank carries their name, and no earlier row does.
      When their result had to be prepended, the rank is 1. */
  lemma LoadedBoardRanksParticipant(quiz: Quiz, response: Fetch<seq<AttemptResult>>, current: AttemptResult)
    requires quiz.mongoId != ""
    ensures var board := LoadBoard(quiz, response, current);
      var rank := UserRank(board, current);
      && 1 <= rank <= |board|
      && board[rank - 1].playerName == current.playerName
      && (forall j :: 0 <= j < rank - 1 ==> board[j].playerName != current.playerName)
      && (response.FetchFailed? || !Listed(response.body.GetOr([]), current) ==> rank == 1)
  {
    var board := LoadBoard(quiz, response, current);
    var rank := UserRank(board, current);
    if response.FetchFailed? || !Listed(response.body.GetOr([]), current) {
      assert board[0].playerName == current.playerName;
      assert rank == 1;
    } else {
      var j :| 0 <= j < |board| && SameAttempt(board[j], current);
      assert 1 <= rank <= j + 1;
    }
  }

  /** The rank follows the name only: when the server already lists this
      name with the same score further down, an earlier attempt under the same
      name takes the rank, and the row at that rank shows the other score. */
  lemma RankCanPointAtAnotherAttempt()
    ensures var earlier := AttemptResult("Ada", "", 5, 10, []);
      var current := AttemptResult("Ada", "", 3, 10, []);
      var board := MergeCurrent([earlier, current], current);
      && board == [earlier, current]
      && UserRank(board, current) == 1
      && board[UserRank(board, current) - 1].score != current.score
  {
    var earlier := AttemptResult("Ada", "", 5, 10, []);
    var current := AttemptResult("Ada", "", 3, 10, []);
    assert SameAttempt([earlier, current][1], current);
  }

  /** One row of the list. */
  datatype BoardRow = BoardRow(
    rank: nat,
    icon: Icon,
    playerName: string,
    isCurrentUser: bool,
    score: nat,
    total: nat,
    percent: Option<int>)

  function BoardRows(board: seq<AttemptResult>, current: AttemptResult): (rows: seq<BoardRow>)
    ensures |rows| == |board|
    ensures forall i :: 0 <= i < |board| ==>
      rows[i] == BoardRow(i + 1, RankIcon(i + 1), board[i].playerName,
                          board[i].playerName == current.playerName,
                          board[i].score, board[i].totalQuestions, ResultPercent(board[i]))
  {
    seq(|board|, i requires 0 <= i < |board| =>
      BoardRow(i + 1, RankIcon(i + 1), board[i].playerName,
               board[i].playerName == current.playerName,
               board[i].score, board[i].totalQuestions, ResultPercent(board[i])))
  }

  /** The row marked "You" first appears at the participant's rank, and only
      the first three rows get a podium icon. */
  lemma RowsAgreeWithRank(board: seq<AttemptResult>, current: AttemptResult)
    ensures var rows := BoardRows(board, current);
      var rank := UserRank(board, current);
      && (rank >= 1 ==> rows[rank - 1].isCurrentUser)
      && (forall i :: 0 <= i < |rows| && rows[i].isCurrentUser ==> rank >= 1 && rank <= rows[i].rank)
      && (forall i :: 0 <= i < |rows| ==> (rows[i].icon.Plain? <==> i >= 3))
  {
  }

  /** The three tiles under the list. */
  datatype Stats = Stats(participants: nat, averageText: string, highScore: nat)

  function BoardStats(board: seq<AttemptResult>): (s: Stats)
    ensures s.participants == |board|
    ensures |board| == 0 ==> s == Stats(0, "0.0", 0)
    ensures |s.averageText| >= 3 && s.averageText[|s.averageText| - 2] == '.'
    ensures |board| > 0 ==> ReadTenths(s.averageText) == (20 * SumScores(board) + |board|) / (2 * |board|)
    ensures s.highScore == HighScore(board)
    ensures forall i :: 0 <= i < |board| ==> board[i].score <= s.highScore
  {
    Stats(|board|, AverageText(board), HighScore(board))
  }

  /** With the participant's result merged in, the high score is at least
      theirs and the average at most the high score. */
  lemma StatsCoverParticipant(quiz: Quiz, response: Fetch<seq<AttemptResult>>, current: AttemptResult)
    requires quiz.mongoId != ""
    ensures var board := LoadBoard(quiz, response, current);
      && BoardStats(board).participants >= 1
      && current.score <= BoardStats(board).highScore
      && AverageTenths(board) <= 10 * BoardStats(board).highScore
  {
    var board := LoadBoard(quiz, response, current);
    if response.Loaded? {
      MergeKeepsServerOrder(response.body.GetOr([]), current);
    }
    assert Listed(board, current);
    var i :| 0 <= i < |board| && SameAttempt(board[i], current);
    assert board[i].score <= HighScore(board);
    AverageAtMostHigh(board);
  }

  /** The personal card: the participant's percentage, rank and rank icon,
      and the answer review against the quiz's questions. */
  datatype Personal = Personal(percent: Option<int>, rank: int, icon: Icon, review: seq<ReviewRow>)

  function PersonalCard(quiz: Quiz, board: seq<AttemptResult>, current: AttemptResult): (p: Personal)
    ensures p.percent == ResultPercent(current)
    ensures p.rank == UserRank(board, current) && p.icon == RankIcon(p.rank)
    ensures |p.review| == |quiz.questions|
    ensures p.review == ReviewAll(quiz.questions, current.answers)
    ensures |current.answers| <= |quiz.questions| ==> CountCorrect(p.review) == Score(current.answers, quiz.questions)
  {
    var review := ReviewAll(quiz.questions, current.answers);
    assert |current.answers| <= |quiz.questions| ==> CountCorrect(review) == Score(current.answers, quiz.questions) by {
      if |current.answers| <= |quiz.questions| {
        CorrectRowsEqualScore(quiz.questions, current.answers);
      }
    }
    var rank := UserRank(board, current);
    Personal(ResultPercent(current), rank, RankIcon(rank), review)
  }
}

=== FILE: leaderboard_page.dfy ===
/** The stand-alone leaderboard page of one quiz: the quiz and its result
    list are requested together; the page shows three tiles and the results
    in the order the server returned them. */
module LeaderboardPage {
  import opened Wrappers
  import opened Entities
  import opened Grading
  import opened Aggregates
  import opened Ranking

  /** One ranked row: rank, icon, background, podium badge, name, score and
      coloured percentage. */
  datatype PageRow = PageRow(
    rank: nat,
    icon: Icon,
    background: Background,
    badge: Option<Badge>,
    playerName: string,
    score: nat,
    total: nat,
    percent: Option<int>,
    band: Band)

  /** The row at position `i` is ranked `i + 1`; the podium treatment goes
      to the first three rows only. */
  function PageRowAt(board: seq<AttemptResult>, i: nat): (row: PageRow)
    requires i < |board|
    ensures row.rank == i + 1
    ensures row.badge.Some? <==> i < 3
    ensures row.background == Standard <==> i >= 3
    ensures row.icon.Plain? <==> i >= 3
    ensures row.playerName == board[i].playerName && row.score == board[i].score && row.total == board[i].totalQuestions
    ensures row.percent.Some? <==> board[i].totalQuestions > 0
    ensures row.percent.Some? ==> row.band == ScoreColor(row.percent.value)
    ensures row.percent == ResultPercent(board[i]) && row.band == ResultBand(board[i])
  {
    var rank := i + 1;
    PageRow(rank, RankIcon(rank), RankBackground(rank), RankBadge(rank),
            board[i].playerName, board[i].score, board[i].totalQuestions,
            ResultPercent(board[i]), ResultBand(board[i]))
  }

  datatype Listing = NoParticipants | Ranked(rows: seq<PageRow>)

  /** The page body. `average` is `None` when some result has no questions,
      where the browser shows a non-number. */
  datatype PageView = PageView(
    topic: string,
    participants: nat,
    average: Option<int>,
    highScore: nat,
    questionCount: nat,
    listing: Listing)

  function ShowPage(quiz: Quiz, board: seq<AttemptResult>): (v: PageView)
    ensures v.topic == quiz.topic && v.questionCount == |quiz.questions|
    ensures v.participants == |board|
    ensures v.average.Some? <==> AllScored(board)
    ensures AllScored(board) ==> v.average == Some(MeanPercent(board))
    ensures |board| == 0 ==> v.average == Some(0) && v.highScore == 0
    ensures v.highScore == HighScore(board)
    ensures forall i :: 0 <= i < |board| ==> board[i].score <= v.highScore
    ensures v.listing == NoParticipants <==> |board| == 0
    ensures v.listing.Ranked? ==> |v.listing.rows| == |board|
    ensures v.listing.Ranked? ==> forall i :: 0 <= i < |board| ==>
      && v.listing.rows[i].rank == i + 1
      && v.listing.rows[i].playerName == board[i].playerName
      && v.listing.rows[i].score == board[i].score
      && v.listing.rows[i] == PageRowAt(board, i)
  {
    var listing :=
      if |board| == 0 then NoParticipants
      else Ranked(seq(|board|, i requires 0 <= i < |board| => PageRowAt(board, i)));
    PageView(quiz.topic, |board|, if AllScored(board) then Some(MeanPercent(board)) else None,
             HighScore(board), |quiz.questions|, listing)
  }

  /** Where loading ends: both requests must succeed (either failing sends
      the user to the dashboard); an empty quiz body shows "Quiz not found";
      an empty result body counts as no results. */
  datatype PageOutcome = ToDashboard | QuizNotFound | Shown(view: PageView)

  function OpenPage(quizFetch: Fetch<Quiz>, boardFetch: Fetch<seq<AttemptResult>>): (o: PageOutcome)
    ensures o == ToDashboard <==> quizFetch.FetchFailed? || boardFetch.FetchFailed?
    ensures o == QuizNotFound <==> quizFetch == Loaded(None) && boardFetch.Loaded?
    ensures o.Shown? ==> o.view == ShowPage(quizFetch.body.value, boardFetch.body.GetOr([]))
  {
    match (quizFetch, boardFetch)
    case (FetchFailed, _) => ToDashboard
    case (_, FetchFailed) => ToDashboard
    case (Loaded(None), Loaded(_)) => QuizNotFound
    case (Loaded(Some(q)), Loaded(b)) => Shown(ShowPage(q, b.GetOr([])))
  }

  /** With every result within its question count, the average tile lies in
      0..100 and every row's percentage does too. */
  lemma PercentagesInRange(quiz: Quiz, board: seq<AttemptResult>)
    requires AllScored(board) && AllWithinTotal(board)
    ensures var v := ShowPage(quiz, board);
      && v.average.Some? && 0 <= v.average.value <= 100
      && (v.listing.Ranked? ==> forall i :: 0 <= i < |board| ==>
            v.listing.rows[i].percent.Some? && 0 <= v.listing.rows[i].percent.value <= 100)
  {
    MeanPercentInRange(board);
    var v := ShowPage(quiz, board);
    if v.listing.Ranked? {
      forall i | 0 <= i < |board|
        ensures v.listing.rows[i].percent.Some? && 0 <= v.listing.rows[i].percent.value <= 100
      {
        PercentInRange(board[i].score, board[i].totalQuestions);
      }
    }
  }

  /** Each of the first three rows gets its own icon, background and badge;
      every later row gets none of them. */
  lemma PodiumRowsDecorated(quiz: Quiz, board: seq<AttemptResult>)
    ensures var v := ShowPage(quiz, board);
      v.listing.Ranked? ==> forall i :: 0 <= i < |board| ==>
        var row := v.listing.rows[i];
        && (row.badge.Some? <==> i < 3)
        && (row.background == Standard <==> i >= 3)
        && (row.icon.Plain? <==> i >= 3)
  {
  }

  /** When every result comes from this quiz (its total is the quiz's
      question count and its score within it), the high score tile never
      exceeds the question count shown beside it. */
  lemma HighScoreWithinQuestionCount(quiz: Quiz, board: seq<AttemptResult>)
    requires forall i :: 0 <= i < |board| ==>
      board[i].totalQuestions == |quiz.questions| && board[i].score <= board[i].totalQuestions
    ensures ShowPage(quiz, board).highScore <= ShowPage(quiz, board).questionCount
  {
    if |board| > 0 {
      var v := ShowPage(quiz, board);
      var i :| 0 <= i < |board| && board[i].score == HighScore(board);
      assert v.highScore == HighScore(board);
    }
  }

  /** For results with a common positive question count, the
      page's mean-of-percentages equals the percentage of the post-attempt
      leaderboard's raw mean score. */
  lemma AverageAgreesWithRawMean(quiz: Quiz, board: seq<AttemptResult>, total: nat)
    requires total > 0 && |board| > 0
    requires forall i :: 0 <= i < |board| ==> board[i].totalQuestions == total
    ensures ShowPage(quiz, board).average ==
      Some(Round(SumScores(board) as real / |board| as real / total as real * 100.0))
  {
    MeanPercentUniformTotal(board, total);
  }
}

=== FILE: navbar.dfy ===
/** The navigation bar's avatar: the initials of the signed-in user's name,
    computed as `split(" ")`, the first character of each piece, joined,
    upper-cased and cut to two characters. */
module Navbar {
  import opened Wrappers

  /** `s.split(" ")`: the pieces between single spaces, always at least one,
      with empty pieces where spaces are adjacent or at either end. */
  function Split(s: string): (parts: seq<string>)
    ensures |parts| >= 1
    ensures forall i :: 0 <= i < |parts| ==> ' ' !in parts[i]
    decreases |s|
  {
    if |s| == 0 then [""]
    else if s[0] == ' ' then [""] + Split(s[1..])
    else
      var rest := Split(s[1..]);
      [[s[0]] + rest[0]] + rest[1..]
  }

  /** `parts.join(sep)`. */
  function Join(parts: seq<string>, sep: string): string
    decreases |parts|
  {
    if |parts| == 0 then ""
    else if |parts| == 1 then parts[0]
    else parts[0] + sep + Join(parts[1..], sep)
  }

  /** Joining the pieces with single spaces gives the name back: splitting
      loses nothing. */
  lemma {:induction false} SplitJoinRoundTrip(s: string)
    ensures Join(Split(s), " ") == s
    decreases |s|
  {
    if |s| > 0 {
      SplitJoinRoundTrip(s[1..]);
      var rest := Split(s[1..]);
      if s[0] == ' ' {
        assert Split(s) == [""] + rest;
        assert ([""] + rest)[1..] == rest;
        assert s == [' '] + s[1..];
      } else {
        var parts := Split(s);
        assert parts[1..] == rest[1..];
        if |rest| == 1 {
          assert s == [s[0]] + rest[0];
        } else {
          assert Join(rest, " ") == rest[0] + " " + Join(rest[1..], " ");
          assert s == [s[0]] + s[1..];
        }
      }
    }
  }

  /** `.map(n => n[0]).join("")`: an empty piece's `n[0]` is `undefined`,
      which `join` writes as nothing. */
  function FirstChars(parts: seq<string>): string
    decreases |parts|
  {
    if |parts| == 0 then ""
    else (if |parts[0]| > 0 then [parts[0][0]] else "") + FirstChars(parts[1..])
  }

  /** The reference reading: the characters that begin a word, that is the
      non-space characters at the start of the name or right after a space.
      `afterSpace` says whether the previous character was a space (or there
      was none). */
  function WordStarts(s: string, afterSpace: bool): string
    decreases |s|
  {
    if |s| == 0 then ""
    else (if afterSpace && s[0] != ' ' then [s[0]] else "") + WordStarts(s[1..], s[0] == ' ')
  }

  /** The first characters of the pieces are exactly the word-starting
      characters; the pieces after the first account for the word starts
      of a name whose first character is not at a word start. */
  lemma {:induction false} FirstCharsAreWordStarts(s: string)
    ensures FirstChars(Split(s)) == WordStarts(s, true)
    ensures FirstChars(Split(s)[1..]) == WordStarts(s, false)
    decreases |s|
  {
    if |s| > 0 {
      FirstCharsAreWordStarts(s[1..]);
      var rest := Split(s[1..]);
      var parts := Split(s);
      if s[0] == ' ' {
        assert parts[1..] == rest;
      } else {
        assert parts[1..] == rest[1..];
        assert FirstChars(parts) == [s[0]] + FirstChars(rest[1..]);
      }
    }
  }

  /** ASCII upper-casing of one character. */
  function UpperChar(c: char): (u: char)
    ensures 'a' <= c <= 'z' ==> u as int == c as int - 32
    ensures !('a' <= c <= 'z') ==> u == c
  {
    if 'a' <= c <= 'z' then (c as int - 32) as char else c
  }

  function Upper(s: string): (u: string)
    ensures |u| == |s|
    ensures forall i :: 0 <= i < |s| ==> u[i] == UpperChar(s[i])
  {
    seq(|s|, i requires 0 <= i < |s| => UpperChar(s[i]))
  }

  /** `.slice(0, 2)`. */
  function Take2(s: string): (r: string)
    ensures |r| == if |s| < 2 then |s| else 2
    ensures r == s[..|r|]
  {
    if |s| < 2 then s else s[..2]
  }

  /** `getInitials`. */
  function Initials(username: string): (r: string)
    ensures |r| <= 2
  {
    Take2(Upper(FirstChars(Split(username))))
  }

  /** The initials are the first two word-starting characters of the name,
      upper-cased: spaces never appear in them, and a name with k words
      yields min(k, 2) characters. */
  lemma InitialsAreFirstWordStarts(username: string)
    ensures Initials(username) == Take2(Upper(WordStarts(username, true)))
    ensures ' ' !in Initials(username)
  {
    FirstCharsAreWordStarts(username);
    NoSpaceInWordStarts(username, true);
  }

  lemma {:induction false} NoSpaceInWordStarts(s: string, afterSpace: bool)
    ensures ' ' !in WordStarts(s, afterSpace)
    ensures ' ' !in Upper(WordStarts(s, afterSpace))
    decreases |s|
  {
    if |s| > 0 {
      NoSpaceInWordStarts(s[1..], s[0] == ' ');
    }
    var w := Upper(WordStarts(s, afterSpace));
    assert forall i :: 0 <= i < |w| ==> w[i] != ' ';
  }

  /** Worked names: two words, a leading and a doubled space, more than
      two words, and lower-case input. */
  lemma InitialsOfTwoWords()
    ensures Initials("al bo") == "AB"
  {
    InitialsAreFirstWordStarts("al bo");
    assert WordStarts("al bo", true) == "ab";
  }

  lemma InitialsSkipExtraSpaces()
    ensures Initials(" a  b") == "AB"
  {
    InitialsAreFirstWordStarts(" a  b");
    assert WordStarts(" a  b", true) == "ab";
  }

  lemma InitialsKeepTwo()
    ensures Initials("a b c") == "AB"
  {
    InitialsAreFirstWordStarts("a b c");
    assert WordStarts("a b c", true) == "abc";
  }

  /** The bar renders nothing without a user; otherwise it shows the name
      and the avatar initials. */
  datatype Bar = Bar(username: string, initials: string)

  function Render(username: Option<string>): (b: Option<Bar>)
    ensures b.None? <==> username.None?
    ensures b.Some? ==> b.value.username == username.value && |b.value.initials| <= 2
    ensures b.Some? ==> b.value.initials == Initials(username.value)
  {
    match username
    case None => None
    case Some(name) => Some(Bar(name, Initials(name)))
  }
}

=== FILE: quiz_creator.dfy ===
/** Generating a quiz: the topic and key guards, the generation service's
    reply, the cleanup of a fenced reply, the shape check on the parsed
    document, the numbering of the questions, and the save. Every path past
    the guards ends with the "generating" flag cleared. */
module QuizCreator {
  import opened Wrappers
  import opened Text
  import opened Entities

  /** The reply of the generation endpoint: an HTTP error status, a reply
      whose envelope yields the generated text (`""` when any step of
      `candidates[0].content.parts[0].text` is missing), or a thrown error
      (network failure, or a body that is not JSON). */
  datatype GenResponse = HttpError(status: int) | Replied(text: string) | Threw

  /** One question as the generator wrote it. */
  datatype ParsedQuestion = ParsedQuestion(text: string, options: seq<string>, correctAnswer: int)

  /** What `JSON.parse` yields: `null`, or a value whose `questions` property
      is an array or is missing. */
  datatype ParsedDoc = NullDoc | Doc(questions: Option<seq<ParsedQuestion>>)

  /** The backend's answer to saving the quiz: the stored quiz, or an error. */
  datatype SaveOutcome = Saved(stored: Quiz) | SaveFailed

  /** How one press of "Generate AI Quiz" ends; each failure raises one
      error message. */
  datatype Outcome =
    | TopicRequired
    | KeyMissing
    | QuotaExceeded
    | InvalidKey
    | GenerationFailed
    | NotJson
    | InvalidFormat
    | NotSaved(draft: Quiz)
    | Generated(draft: Quiz, stored: Quiz)

  /** `toast.success` or `toast.error`. */
  datatype ToastKind = Success | Failure

  datatype Toast = Toast(kind: ToastKind, text: string)

  /** The toast shown for each outcome: a success toast for a saved quiz and
      an error toast for every other outcome, a draft the backend did not
      save included. */
  function Message(o: Outcome): (t: Toast)
    ensures t.kind == Success <==> o.Generated?
    ensures t.text == MessageText(o)
  {
    Toast(if o.Generated? then Success else Failure, MessageText(o))
  }

  function MessageText(o: Outcome): string {
    match o
    case TopicRequired => "Please enter a topic for your quiz"
    case KeyMissing => "Gemini API key is missing. Please set VITE_GEMINI_API_KEY in your .env file."
    case QuotaExceeded => "You have exceeded your Gemini quota or rate limit. Please check your usage, wait a few minutes, or upgrade your plan."
    case InvalidKey => "Invalid Gemini API key. Please check your key and try again."
    case GenerationFailed => "Failed to generate quiz. Please check your Gemini API key and try again."
    case NotJson => "Sorry, the quiz could not be generated. Please try again or change your topic."
    case InvalidFormat => "Sorry, the quiz format was invalid. Please try again or change your topic."
    case NotSaved(_) => "Failed to save quiz to backend"
    case Generated(_, _) => "Quiz generated successfully!"
  }

  /** The number of questions a generated quiz must have. */
  const QuestionCount: nat := 10

  const Fence: string := "```"
  const JsonFence: string := "```json"

  /** `s.replace(/```$/, '')`: one closing fence at the very end is removed. */
  function DropClosingFence(s: string): (r: string)
    ensures EndsWith(s, Fence) ==> r + Fence == s
    ensures !EndsWith(s, Fence) ==> r == s
  {
    if EndsWith(s, Fence) then s[..|s| - |Fence|] else s
  }

  /** The reply text with markdown code fences removed: trimmed, then an
      opening "```json" (checked first) or "```" is dropped together with a
      closing "```", and the rest trimmed again. */
  function StripFences(text: string): (r: string)
    ensures Trimmed(r)
  {
    var clean := Trim(text);
    var r := Unfence(clean);
    assert Trimmed(r) by {
      if StartsWith(clean, JsonFence) {
        assert r == Trim(DropClosingFence(clean[|JsonFence|..]));
      } else if StartsWith(clean, Fence) {
        assert r == Trim(DropClosingFence(clean[|Fence|..]));
      } else {
        assert r == clean;
      }
    }
    r
  }

  function Unfence(clean: string): (r: string)
    ensures !StartsWith(clean, Fence) ==> r == clean
    ensures StartsWith(clean, JsonFence) ==> r == Trim(DropClosingFence(clean[|JsonFence|..]))
    ensures StartsWith(clean, Fence) && !StartsWith(clean, JsonFence) ==>
      r == Trim(DropClosingFence(clean[|Fence|..]))
  {
    JsonFenceOpensFence(clean);
    if StartsWith(clean, JsonFence) then Trim(DropClosingFence(clean[|JsonFence|..]))
    else if StartsWith(clean, Fence) then Trim(DropClosingFence(clean[|Fence|..]))
    else clean
  }

  /** "```json" begins with "```". */
  lemma JsonFenceOpensFence(s: string)
    ensures StartsWith(s, JsonFence) ==> StartsWith(s, Fence)
  {
    if StartsWith(s, JsonFence) {
      assert s[..|Fence|] == s[..|JsonFence|][..|Fence|];
    }
  }

  /** Text that does not begin with a fence is only trimmed; in particular
      stripping is idempotent on its own output unless that output begins
      with a fence. */
  lemma StripFencesOfUnfenced(text: string)
    requires !StartsWith(Trim(text), Fence)
    ensures StripFences(text) == Trim(text)
  {
  }

  /** A body wrapped in a "```json" fence comes back as the trimmed body. */
  lemma StripJsonFence(body: string)
    ensures StripFences(JsonFence + body + Fence) == Trim(body)
  {
    var s := JsonFence + body + Fence;
    TrimOfTrimmed(s);
    assert StartsWith(s, JsonFence);
    assert s[|JsonFence|..] == body + Fence;
    assert DropClosingFence(body + Fence) == body;
  }

  /** A body wrapped in a bare "```" fence comes back trimmed too, as long
      as it does not itself begin with "json" (which the first test takes). */
  lemma StripPlainFence(body: string)
    requires !StartsWith(body, "json")
    ensures StripFences(Fence + body + Fence) == Trim(body)
  {
    TrimOfTrimmed(Fence + body + Fence);
    PlainFenceIsNotJsonFence(body);
    UnfencePlain(body);
  }

  lemma UnfencePlain(body: string)
    requires !StartsWith(Fence + body + Fence, JsonFence)
    ensures Unfence(Fence + body + Fence) == Trim(body)
  {
    var s := Fence + body + Fence;
    assert StartsWith(s, Fence);
    assert s[|Fence|..] == body + Fence;
    assert DropClosingFence(body + Fence) == body;
  }

  lemma PlainFenceIsNotJsonFence(body: string)
    requires !StartsWith(body, "json")
    ensures !StartsWith(Fence + body + Fence, JsonFence)
  {
    var s := Fence + body + Fence;
    if |body| >= 4 {
      assert s[3..7] == body[..4];
    } else {
      assert s[3 + |body|] == '`';
      assert JsonFence[3 + |body|] != '`';
    }
  }

  /** `questions.map((q, index) => ({ id: index + 1, ... }))`. */
  function Renumber(qs: seq<ParsedQuestion>): (r: seq<Question>)
    ensures |r| == |qs|
    ensures forall i :: 0 <= i < |qs| ==> r[i].id == i + 1
  {
    seq(|qs|, i requires 0 <= i < |qs| =>
      Question(i + 1, qs[i].text, qs[i].options, qs[i].correctAnswer))
  }

  /** Numbering drops nothing: the generated questions are recovered from
      the numbered ones. */
  function Unnumber(qs: seq<Question>): (r: seq<ParsedQuestion>)
    ensures |r| == |qs|
  {
    seq(|qs|, i requires 0 <= i < |qs| => ParsedQuestion(qs[i].text, qs[i].options, qs[i].correctAnswer))
  }

  lemma RenumberRoundTrip(qs: seq<ParsedQuestion>)
    ensures Unnumber(Renumber(qs)) == qs
  {
    var back := Unnumber(Renumber(qs));
    assert forall i :: 0 <= i < |qs| ==> back[i] == qs[i];
  }

  /** The quiz posted to the backend: the topic as typed (not trimmed), the
      numbered questions, no participants, and the stored user's `_id` as its
      creator (absent when no user is stored). */
  function Draft(topic: string, qs: seq<ParsedQuestion>, creator: string): (q: Quiz)
    ensures q.topic == topic && q.questions == Renumber(qs)
    ensures q.participants == [] && q.participantCount == 0 && q.createdBy == creator
    ensures QuizId(q) == ""
  {
    Quiz("", "", topic, Renumber(qs), 0, [], creator)
  }

  /** The check on the parsed reply: it must be a value whose `questions`
      is an array of exactly ten. */
  datatype Reading = NotParsed | NullValue | WrongShape | Accepted(questions: seq<ParsedQuestion>)

  function ReadQuestions(doc: Option<ParsedDoc>): (r: Reading)
    ensures r.Accepted? <==>
      doc.Some? && doc.value.Doc? && doc.value.questions.Some? && |doc.value.questions.value| == QuestionCount
    ensures r.Accepted? ==> r.questions == doc.value.questions.value && |r.questions| == QuestionCount
    ensures r == NotParsed <==> doc.None?
    ensures r == NullValue <==> doc == Some(NullDoc)
  {
    match doc
    case None => NotParsed
    case Some(NullDoc) => NullValue
    case Some(Doc(questions)) =>
      if questions.None? || |questions.value| != QuestionCount then WrongShape
      else Accepted(questions.value)
  }

  /** The creator recorded on a draft: the stored user's `_id`, absent when
      no user is stored. */
  function Creator(stored: StoredUser): (c: string)
    ensures c != "" ==> stored.Stored? && c == stored.mongoId
    ensures c == "" <==> !stored.Stored? || stored.mongoId == ""
  {
    if stored.Stored? then stored.mongoId else ""
  }

  /** After a readable reply: an unparseable stored user makes the
      `JSON.parse` of it throw; otherwise the draft is posted. Reading
      `questions` of `null` also throws; both throws land in the handler that
      reports a generation failure. */
  function Settle(topic: string, reading: Reading, stored: StoredUser, save: SaveOutcome): (o: Outcome)
    ensures o.Generated? <==> reading.Accepted? && !stored.Unparseable? && save.Saved?
    ensures o.NotSaved? <==> reading.Accepted? && !stored.Unparseable? && save.SaveFailed?
    ensures o.Generated? || o.NotSaved? ==> o.draft == Draft(topic, reading.questions, Creator(stored))
    ensures o.Generated? ==> o.stored == save.stored
    ensures o == NotJson <==> reading == NotParsed
    ensures o == InvalidFormat <==> reading == WrongShape
    ensures o == GenerationFailed <==> (reading == NullValue || (reading.Accepted? && stored.Unparseable?))
  {
    match reading
    case NotParsed => NotJson
    case NullValue => GenerationFailed
    case WrongShape => InvalidFormat
    case Accepted(qs) =>
      if stored.Unparseable? then GenerationFailed
      else
        var draft := Draft(topic, qs, Creator(stored));
        match save
        case SaveFailed => NotSaved(draft)
        case Saved(q) => Generated(draft, q)
  }

  /** The outcome of an HTTP error status. */
  function StatusOutcome(status: int): (o: Outcome)
    ensures o == QuotaExceeded <==> status == 429
    ensures o == InvalidKey <==> status == 401
    ensures status != 429 && status != 401 ==> o == GenerationFailed
  {
    if status == 429 then QuotaExceeded else if status == 401 then InvalidKey else GenerationFailed
  }

  /** Everything after the two guards. */
  function AfterGuards(topic: string, response: GenResponse, parse: string -> Option<ParsedDoc>,
                       stored: StoredUser, save: SaveOutcome): (o: Outcome)
    ensures o != TopicRequired && o != KeyMissing
    ensures response.Threw? ==> o == GenerationFailed
    ensures response.HttpError? ==> o == StatusOutcome(response.status)
    ensures response.Replied? ==> o == Settle(topic, ReadQuestions(parse(StripFences(response.text))), stored, save)
  {
    match response
    case Threw => GenerationFailed
    case HttpError(status) => StatusOutcome(status)
    case Replied(text) => Settle(topic, ReadQuestions(parse(StripFences(text))), stored, save)
  }

  /** One press of the generate action. `generating` is the flag before the
      press; the result pairs the outcome with the flag afterwards. `parse`
      is `JSON.parse` (`None` when it throws). */
  datatype Run = Run(outcome: Outcome, generating: bool)

  function Generate(
    topic: string, apiKey: string, generating: bool,
    response: GenResponse, parse: string -> Option<ParsedDoc>,
    stored: StoredUser, save: SaveOutcome): (r: Run)
    ensures IsBlank(topic) ==> r == Run(TopicRequired, generating)
    ensures !IsBlank(topic) && IsBlank(apiKey) ==> r == Run(KeyMissing, generating)
    ensures !IsBlank(topic) && !IsBlank(apiKey) ==>
      r == Run(AfterGuards(topic, response, parse, stored, save), false)
  {
    if IsBlank(topic) then Run(TopicRequired, generating)
    else if IsBlank(apiKey) then Run(KeyMissing, generating)
    else Run(AfterGuards(topic, response, parse, stored, save), false)
  }

  /** A press produces a quiz exactly when the guards pass, the service
      replies, the stripped reply parses to ten questions, the stored user
      (if any) is readable and the save succeeds. The quiz posted carries
      the typed topic and the ten questions numbered 1..10. */
  lemma GeneratedExactly(
    topic: string, apiKey: string, generating: bool,
    response: GenResponse, parse: string -> Option<ParsedDoc>,
    stored: StoredUser, save: SaveOutcome)
    ensures var o := Generate(topic, apiKey, generating, response, parse, stored, save).outcome;
      && (o.Generated? <==>
           && !IsBlank(topic) && !IsBlank(apiKey) && response.Replied?
           && ReadQuestions(parse(StripFences(response.text))).Accepted?
           && !stored.Unparseable? && save.Saved?)
      && (o.Generated? || o.NotSaved? ==>
           && response.Replied?
           && ReadQuestions(parse(StripFences(response.text))).Accepted?
           && o.draft.topic == topic
           && |o.draft.questions| == QuestionCount
           && (forall i :: 0 <= i < QuestionCount ==> o.draft.questions[i].id == i + 1)
           && Unnumber(o.draft.questions) == ReadQuestions(parse(StripFences(response.text))).questions
           && o.draft.createdBy == Creator(stored))
  {
    if !IsBlank(topic) && !IsBlank(apiKey) && response.Replied? {
      var reading := ReadQuestions(parse(StripFences(response.text)));
      GenerateSettles(topic, apiKey, generating, response, parse, stored, save);
      SettledDraft(topic, reading, stored, save);
    } else {
      GenerateStopsEarly(topic, apiKey, generating, response, parse, stored, save);
    }
  }

  lemma GenerateSettles(
    topic: string, apiKey: string, generating: bool,
    response: GenResponse, parse: string -> Option<ParsedDoc>,
    stored: StoredUser, save: SaveOutcome)
    requires !IsBlank(topic) && !IsBlank(apiKey) && response.Replied?
    ensures Generate(topic, apiKey, generating, response, parse, stored, save).outcome
         == Settle(topic, ReadQuestions(parse(StripFences(response.text))), stored, save)
  {
  }

  lemma GenerateStopsEarly(
    topic: string, apiKey: string, generating: bool,
    response: GenResponse, parse: string -> Option<ParsedDoc>,
    stored: StoredUser, save: SaveOutcome)
    requires IsBlank(topic) || IsBlank(apiKey) || !response.Replied?
    ensures var o := Generate(topic, apiKey, generating, response, parse, stored, save).outcome;
      !o.Generated? && !o.NotSaved?
  {
    if !IsBlank(topic) && !IsBlank(apiKey) {
      UnrepliedStops(topic, response, parse, stored, save);
    }
  }

  lemma UnrepliedStops(
    topic: string, response: GenResponse, parse: string -> Option<ParsedDoc>,
    stored: StoredUser, save: SaveOutcome)
    requires !response.Replied?
    ensures var o := AfterGuards(topic, response, parse, stored, save);
      o == GenerationFailed || o == QuotaExceeded || o == InvalidKey
  {
  }

  /** A settled draft carries the typed topic, the creator, and the
      accepted questions numbered from 1. */
  lemma SettledDraft(topic: string, reading: Reading, stored: StoredUser, save: SaveOutcome)
    ensures var o := Settle(topic, reading, stored, save);
      o.Generated? || o.NotSaved? ==>
        && reading.Accepted?
        && o.draft.topic == topic
        && |o.draft.questions| == |reading.questions|
        && (forall i :: 0 <= i < |reading.questions| ==> o.draft.questions[i].id == i + 1)
        && Unnumber(o.draft.questions) == reading.questions
        && o.draft.createdBy == Creator(stored)
  {
    var o := Settle(topic, reading, stored, save);
    if o.Generated? || o.NotSaved? {
      var qs := reading.questions;
      assert o.draft == Draft(topic, qs, Creator(stored));
      RenumberRoundTrip(qs);
    }
  }

  /** The generate button is enabled only when not generating and both the
      topic and the key are non-blank. */
  predicate GenerateEnabled(topic: string, apiKey: string, generating: bool) {
    !generating && !IsBlank(topic) && !IsBlank(apiKey)
  }

  /** A press through the enabled button never stops at a guard, and it
      always leaves the button enabled again. */
  lemma EnabledPressPassesGuards(
    topic: string, apiKey: string,
    response: GenResponse, parse: string -> Option<ParsedDoc>,
    stored: StoredUser, save: SaveOutcome)
    requires GenerateEnabled(topic, apiKey, false)
    ensures var r := Generate(topic, apiKey, false, response, parse, stored, save);
      && r.outcome != TopicRequired && r.outcome != KeyMissing
      && GenerateEnabled(topic, apiKey, r.generating)
  {
  }

  /** The HTTP error statuses: 429 and 401 have their own messages, every
      other status shares the message of a thrown error. */
  lemma HttpErrorMessages(
    topic: string, apiKey: string, generating: bool, status: int,
    parse: string -> Option<ParsedDoc>, stored: StoredUser, save: SaveOutcome)
    requires !IsBlank(topic) && !IsBlank(apiKey)
    ensures var o := Generate(topic, apiKey, generating, HttpError(status), parse, stored, save).outcome;
      && (o == QuotaExceeded <==> status == 429)
      && (o == InvalidKey <==> status == 401)
      && (status != 429 && status != 401 ==>
            Message(o) == Message(Generate(topic, apiKey, generating, Threw, parse, stored, save).outcome))
  {
    var o := Generate(topic, apiKey, generating, HttpError(status), parse, stored, save).outcome;
    assert o == StatusOutcome(status);
    if status != 429 && status != 401 {
      assert o == GenerationFailed;
      assert Generate(topic, apiKey, generating, Threw, parse, stored, save).outcome == GenerationFailed;
    }
  }

  /** The reply is parsed after the fences are stripped: a reply wrapped in
      a "```json" fence is handled exactly as its trimmed body would be,
      unless that body is itself fenced. */
  lemma FencedReplyParsesBody(
    topic: string, apiKey: string, generating: bool, body: string,
    parse: string -> Option<ParsedDoc>, stored: StoredUser, save: SaveOutcome)
    requires !StartsWith(Trim(body), Fence)
    ensures Generate(topic, apiKey, generating, Replied(JsonFence + body + Fence), parse, stored, save)
         == Generate(topic, apiKey, generating, Replied(Trim(body)), parse, stored, save)
  {
    StripJsonFence(body);
    TrimIdempotent(body);
    StripFencesOfUnfenced(Trim(body));
  }
}

=== FILE: quiz_display.dfy ===
/** The page shown after a quiz is generated or picked from the dashboard:
    the quiz's links, its two tiles, the leaderboard button, and a
    question-by-question preview with the correct option highlighted. */
module QuizDisplay {
  import opened Wrappers
  import opened Text
  import opened Entities

  const QuizPrefix: string := "/quiz/"
  const TakeSuffix: string := "/take"
  const LeaderboardSuffix: string := "/leaderboard"

  /** `/quiz/${id}` followed by a route suffix. */
  function QuizRoute(id: string, suffix: string): (p: string)
    ensures |p| == |QuizPrefix| + |id| + |suffix|
    ensures p[..|QuizPrefix|] == QuizPrefix && p[|p| - |suffix|..] == suffix
    ensures p[|QuizPrefix|..|p| - |suffix|] == id
  {
    var p := QuizPrefix + id + suffix;
    assert p[|QuizPrefix|..|p| - |suffix|] == id;
    p
  }

  /** An id the router reads back unchanged as the `:id` segment of a URL:
      non-empty, with no '/' (which ends the segment), no '?' or '#' (which
      end the path) and no '%' (an escape the router decodes). */
  predicate PathSegment(id: string) {
    id != "" && '/' !in id && '?' !in id && '#' !in id && '%' !in id
  }

  /** The router's reading of a path against `/quiz/:id` + `suffix`. Only
      a segment the router keeps as it is counts as an id. */
  function MatchRoute(path: string, suffix: string): (id: Option<string>)
    ensures id.Some? ==> PathSegment(id.value) && QuizRoute(id.value, suffix) == path
  {
    if |path| >= |QuizPrefix| + |suffix| && StartsWith(path, QuizPrefix) && EndsWith(path, suffix) then
      var id := path[|QuizPrefix|..|path| - |suffix|];
      assert path == QuizPrefix + id + suffix by {
        assert path[..|QuizPrefix|] == QuizPrefix;
        assert path[|path| - |suffix|..] == suffix;
        assert path == path[..|QuizPrefix|] + id + path[|path| - |suffix|..];
      }
      if PathSegment(id) then Some(id) else None
    else None
  }

  /** A route built from an id reads back as that id exactly when the
      router keeps the id as it is. */
  lemma RouteRoundTrip(id: string, suffix: string)
    ensures MatchRoute(QuizRoute(id, suffix), suffix) == (if PathSegment(id) then Some(id) else None)
  {
  }

  /** The route that starts the quiz. */
  function TakePath(id: string): (p: string)
    ensures StartsWith(p, QuizPrefix) && EndsWith(p, TakeSuffix)
    ensures |p| == |QuizPrefix| + |id| + |TakeSuffix|
    ensures p[|QuizPrefix|..|p| - |TakeSuffix|] == id
  {
    QuizRoute(id, TakeSuffix)
  }

  /** The route of the quiz's leaderboard page. */
  function LeaderboardPath(id: string): (p: string)
    ensures StartsWith(p, QuizPrefix) && EndsWith(p, LeaderboardSuffix)
    ensures |p| == |QuizPrefix| + |id| + |LeaderboardSuffix|
    ensures p[|QuizPrefix|..|p| - |LeaderboardSuffix|] == id
  {
    QuizRoute(id, LeaderboardSuffix)
  }

  /** The link that is copied, shared and drawn as a QR code: the page's
      origin followed by the take route of `_id || id`. */
  function ShareUrl(origin: string, quiz: Quiz): (u: string)
    ensures |u| >= |origin| && u[..|origin|] == origin && u[|origin|..] == TakePath(QuizId(quiz))
  {
    origin + TakePath(QuizId(quiz))
  }

  /** `/quiz/:id/take`. */
  function MatchTake(path: string): (id: Option<string>)
    ensures id.Some? ==> PathSegment(id.value) && TakePath(id.value) == path
  {
    MatchRoute(path, TakeSuffix)
  }

  /** `/quiz/:id/leaderboard`. */
  function MatchLeaderboard(path: string): (id: Option<string>)
    ensures id.Some? ==> PathSegment(id.value) && LeaderboardPath(id.value) == path
  {
    MatchRoute(path, LeaderboardSuffix)
  }

  /** The share link leads back to the quiz: the take route of a quiz id
      that the router keeps as it is is read back as that id. The empty id
      gives a route that matches no quiz. */
  lemma TakePathRoundTrip(id: string)
    ensures MatchTake(TakePath(id)) == (if PathSegment(id) then Some(id) else None)
  {
    RouteRoundTrip(id, TakeSuffix);
  }

  /** The leaderboard button leads to the leaderboard of the same quiz. */
  lemma LeaderboardPathRoundTrip(id: string)
    ensures MatchLeaderboard(LeaderboardPath(id)) == (if PathSegment(id) then Some(id) else None)
  {
    RouteRoundTrip(id, LeaderboardSuffix);
  }

  /** An id holding '?' is cut short in a real URL, so its take route is
      not read back: the path the browser sees is "/quiz/a", no take route. */
  lemma QueryInIdIsNotRead()
    ensures TakePath("a?b") == "/quiz/a?b/take"
    ensures MatchTake(TakePath("a?b")) == None
  {
    TakePathRoundTrip("a?b");
    assert '?' in "a?b" by {
      assert "a?b"[1] == '?';
    }
  }

  /** The two buttons never lead to the same page: no take route is a
      leaderboard route. */
  lemma TakeAndLeaderboardDiffer(a: string, b: string)
    ensures TakePath(a) != LeaderboardPath(b)
  {
    var t, l := TakePath(a), LeaderboardPath(b);
    assert t[|t| - 1] == 'e' && l[|l| - 1] == 'd';
  }

  /** Opening the shared link on the same origin takes the quiz the link
      was made for, whenever the router keeps its id as it is. */
  lemma ShareUrlOpensQuiz(origin: string, quiz: Quiz)
    requires PathSegment(QuizId(quiz))
    ensures MatchTake(ShareUrl(origin, quiz)[|origin|..]) == Some(QuizId(quiz))
  {
    TakePathRoundTrip(QuizId(quiz));
  }

  /** The preview's question index. */
  function PreviewNext(index: int, n: nat): (r: int)
    ensures index < n - 1 ==> r == index + 1
    ensures index >= n - 1 ==> r == index
  {
    if index < n - 1 then index + 1 else index
  }

  function PreviewPrevious(index: int): (r: int)
    ensures index > 0 ==> r == index - 1
    ensures index <= 0 ==> r == index
  {
    if index > 0 then index - 1 else index
  }

  /** The Next button is disabled exactly on the last question, where
      pressing it would change nothing. */
  predicate NextDisabled(index: int, n: nat)
    ensures 0 <= index < n ==> (NextDisabled(index, n) <==> PreviewNext(index, n) == index)
  {
    index == n - 1
  }

  /** The Previous button is disabled exactly on the first question, where
      pressing it would change nothing. */
  predicate PreviousDisabled(index: int)
    ensures 0 <= index ==> (PreviousDisabled(index) <==> PreviewPrevious(index) == index)
  {
    index == 0
  }

  /** Starting at 0 on a quiz with questions, the preview index stays a
      valid question position, and each button is disabled exactly when
      pressing it would change nothing. */
  lemma PreviewStaysInRange(index: int, n: nat)
    requires 0 <= index < n
    ensures 0 <= PreviewNext(index, n) < n && 0 <= PreviewPrevious(index) < n
    ensures NextDisabled(index, n) <==> PreviewNext(index, n) == index
    ensures PreviousDisabled(index) <==> PreviewPrevious(index) == index
    ensures PreviewPrevious(PreviewNext(index, n)) == index || NextDisabled(index, n)
    ensures PreviewNext(PreviewPrevious(index), n) == index || PreviousDisabled(index)
  {
  }

  /** The preview highlights the option at the correct index. */
  function Highlights(q: Question): (h: seq<bool>)
    ensures |h| == |q.options|
    ensures forall o :: 0 <= o < |h| ==> (h[o] <==> o == q.correctAnswer)
  {
    seq(|q.options|, o requires 0 <= o < |q.options| => o == q.correctAnswer)
  }

  /** Exactly one option is highlighted when the correct index is in range,
      none otherwise. */
  lemma OneHighlight(q: Question)
    ensures (exists o :: 0 <= o < |q.options| && Highlights(q)[o]) <==> 0 <= q.correctAnswer < |q.options|
    ensures forall a, b :: 0 <= a < |q.options| && 0 <= b < |q.options| && Highlights(q)[a] && Highlights(q)[b] ==> a == b
  {
    if 0 <= q.correctAnswer < |q.options| {
      assert Highlights(q)[q.correctAnswer];
    }
  }

  /** `quiz.participantCount > 0 || quiz.participants?.length > 0`. */
  predicate ShowsLeaderboardButton(q: Quiz)
    ensures q.participantCount >= 0 ==> (ShowsLeaderboardButton(q) <==> ParticipantTotal(q) > 0)
  {
    q.participantCount > 0 || |q.participants| > 0
  }

  /** The button appears exactly when the participants tile shows a positive
      number, provided the stored count is not negative. With a negative
      count and a non-empty list the button shows beside a negative tile. */
  lemma LeaderboardButtonMatchesTile(q: Quiz)
    ensures q.participantCount >= 0 ==> (ShowsLeaderboardButton(q) <==> ParticipantTotal(q) > 0)
    ensures q.participantCount < 0 && |q.participants| > 0 ==> ShowsLeaderboardButton(q) && ParticipantTotal(q) < 0
  {
  }

  /** The two tiles. */
  datatype Tiles = Tiles(questions: nat, participants: int)

  function QuizTiles(q: Quiz): (t: Tiles)
    ensures t.questions == |q.questions| && t.participants == ParticipantTotal(q)
  {
    Tiles(|q.questions|, ParticipantTotal(q))
  }
}

=== FILE: quiz_taker.dfy ===
/** The quiz-taking component as a state machine. The component's React state
    (current index, answer slots, player name, and the `hasStarted`,
    `isLoggedIn` and `showAuth` flags) is one immutable record; each event
    handler is a pure transition. Browser storage, the clock and the submit
    request are inputs: the stored user as read at that moment and the outcome
    of the POST. */
module QuizTaker {
  import opened Wrappers
  import opened Text
  import opened Entities
  import opened Grading

  /** Which authentication form, if any, is shown (`showAuth`). */
  datatype AuthView = NoAuth | LoginForm | SignupForm

  datatype Taker = Taker(
    index: nat,                   // currentQuestion
    answers: seq<Option<nat>>,    // one slot per question once started
    playerName: string,
    started: bool,                // hasStarted
    loggedIn: bool,               // isLoggedIn
    auth: AuthView)

  /** What the component renders, checked in the order of its `if`s: the
      login form, the signup form, the name prompt, then the question. */
  datatype Screen = LoginScreen | SignupScreen | NamePrompt | QuestionScreen(index: nat)

  function ScreenOf(t: Taker): Screen {
    match t.auth
    case LoginForm => LoginScreen
    case SignupForm => SignupScreen
    case NoAuth => if t.started then QuestionScreen(t.index) else NamePrompt
  }

  /** A session that is taking a quiz of `n` questions: started, one slot per
      question, and the index on a question. */
  predicate Taking(t: Taker, n: nat) {
    t.started && |t.answers| == n && t.index < n
  }

  /** The mount effect: a stored user that parses logs the participant in
      under its username; otherwise the login form opens. */
  function Mount(stored: StoredUser): (t: Taker)
    ensures t.index == 0 && t.answers == [] && !t.started
    ensures t.loggedIn <==> stored.Stored?
    ensures stored.Stored? ==> t.playerName == stored.username && ScreenOf(t) == NamePrompt
    ensures !stored.Stored? ==> t.playerName == "" && ScreenOf(t) == LoginScreen
  {
    match stored
    case Stored(name, _, _) => Taker(0, [], name, false, true, NoAuth)
    case _ => Taker(0, [], "", false, false, LoginForm)
  }

  /** Typing in the name field, which is disabled for a logged-in participant. */
  function EditName(t: Taker, name: string): (r: Taker)
    ensures t.loggedIn ==> r == t
    ensures !t.loggedIn ==> r == t.(playerName := name)
  {
    if t.loggedIn then t else t.(playerName := name)
  }

  /** The login form's success callback: logged in under the account's name,
      forms closed. Nothing about the quiz in progress changes. */
  function LoginSucceeded(t: Taker, username: string): (r: Taker)
    ensures r.loggedIn && r.auth == NoAuth && r.playerName == username
    ensures r.index == t.index && r.answers == t.answers && r.started == t.started
  {
    t.(loggedIn := true, playerName := username, auth := NoAuth)
  }

  /** Switching between the login and signup forms: the only targets the
      forms' links name. */
  function ShowAuthForm(t: Taker, form: AuthView): (r: Taker)
    requires form != NoAuth
    ensures r.auth == form
    ensures r.index == t.index && r.answers == t.answers && r.started == t.started
    ensures r.playerName == t.playerName && r.loggedIn == t.loggedIn
  {
    t.(auth := form)
  }

  /** `startQuiz`: a blank name is refused and nothing changes; otherwise
      `n` empty slots are allocated and the first question is shown. */
  function Start(t: Taker, n: nat): (r: Taker)
    ensures IsBlank(t.playerName) ==> r == t
    ensures !IsBlank(t.playerName) ==>
      && r.started && r.index == 0 && |r.answers| == n
      && (forall i :: 0 <= i < n ==> r.answers[i] == None)
      && r.playerName == t.playerName && r.loggedIn == t.loggedIn && r.auth == t.auth
  {
    if IsBlank(t.playerName) then t
    else t.(answers := EmptySlots(n), index := 0, started := true)
  }

  /** `new Array(n).fill(null)`. */
  function EmptySlots(n: nat): (slots: seq<Option<nat>>)
    ensures |slots| == n && forall i :: 0 <= i < n ==> slots[i] == None
  {
    if n == 0 then [] else EmptySlots(n - 1) + [None]
  }

  /** The derived `selectedAnswer`: `answers[currentQuestion] ?? null`. */
  function SelectedAnswer(t: Taker): Option<nat> {
    if t.index < |t.answers| then t.answers[t.index] else None
  }

  /** `selectAnswer(k)`: writes `k` into the current slot only. The option
      buttons exist only on the question screen, where the index is a slot. */
  function Select(t: Taker, k: nat): (r: Taker)
    requires t.index < |t.answers|
    ensures |r.answers| == |t.answers|
    ensures r.answers[t.index] == Some(k)
    ensures forall j :: 0 <= j < |t.answers| && j != t.index ==> r.answers[j] == t.answers[j]
    ensures r.index == t.index && r.started == t.started && r.playerName == t.playerName
    ensures r.loggedIn == t.loggedIn && r.auth == t.auth
    ensures SelectedAnswer(r) == Some(k)
  {
    t.(answers := t.answers[t.index := Some(k)])
  }

  /** A later selection on the same question replaces an earlier one. */
  lemma SelectLastWriteWins(t: Taker, a: nat, b: nat)
    requires t.index < |t.answers|
    ensures Select(Select(t, a), b) == Select(t, b)
  {
  }

  /** `prevQuestion`: one step back unless already on the first question. */
  function Retreat(t: Taker): (r: Taker)
    ensures t.index > 0 ==> r.index == t.index - 1
    ensures t.index == 0 ==> r == t
    ensures r.answers == t.answers && r.started == t.started && r.playerName == t.playerName
    ensures r.loggedIn == t.loggedIn && r.auth == t.auth
  {
    if t.index > 0 then t.(index := t.index - 1) else t
  }

  /** The Previous button is disabled exactly when pressing it would do nothing. */
  predicate PreviousDisabled(t: Taker) {
    t.index == 0
  }

  lemma PreviousDisabledIffNoop(t: Taker)
    ensures PreviousDisabled(t) <==> Retreat(t) == t
  {
  }

  /** The outcome of the POST to `/api/quiz/{id}/submit`. A failure may carry
      the server's `error` text ("" when the response has none or there was no
      response at all). */
  datatype SubmitOutcome = Accepted | Failed(serverError: string)

  /** The payload posted to the backend. */
  datatype Submission = Submission(
    quizId: string,
    playerName: string,
    userId: string,
    topic: string,
    score: nat,
    totalQuestions: nat,
    answers: seq<Option<nat>>)

  /** What an advance reports besides the new state. */
  datatype Event =
    | AnswerRequired              // "Please select an answer"
    | Moved                       // on to the next question
    | SessionExpired              // no stored user
    | InvalidSession              // stored user is not valid JSON
    | MissingUserId               // stored user has neither `_id` nor `id`
    | Completed(result: AttemptResult, sent: Submission)
    | SubmitFailed(message: string)

  datatype Step = Step(next: Taker, event: Event)

  predicate NeedsLogin(e: Event) {
    e.SessionExpired? || e.InvalidSession? || e.MissingUserId?
  }

  function SubmitFailureMessage(serverError: string): (m: string)
    ensures serverError != "" ==> m == "Failed to submit results: " + serverError
    ensures serverError == "" ==> m == "Failed to submit results to backend"
  {
    if serverError != "" then "Failed to submit results: " + serverError
    else "Failed to submit results to backend"
  }

  /** Dropping to the login form after the session turned out to be unusable. */
  function RequireLogin(t: Taker): Taker {
    t.(loggedIn := false, auth := LoginForm)
  }

  /** `nextQuestion`. Refused while the current slot is empty; otherwise moves
      on, or on the last question scores the answers and submits them.
      Completion is reported only when the stored user yields an id and the
      submit succeeds; every other final outcome keeps the session on the last
      question with its answers, so advancing again retries. The answers are
      never modified. `stored` is the browser-storage user at that moment. */
  function Advance(t: Taker, quiz: Quiz, stored: StoredUser, outcome: SubmitOutcome): (r: Step)
    requires |t.answers| <= |quiz.questions|
    ensures SelectedAnswer(t) == None ==> r == Step(t, AnswerRequired)
    ensures r.next.answers == t.answers && r.next.started == t.started
    ensures r.next.playerName == t.playerName
    ensures r.event == Moved <==> SelectedAnswer(t) != None && t.index + 1 < |quiz.questions|
    ensures r.event == Moved ==> r.next == t.(index := t.index + 1)
    ensures r.event != Moved ==> r.next.index == t.index
    ensures r.event.Completed? <==>
      SelectedAnswer(t) != None && t.index + 1 >= |quiz.questions|
      && stored.Stored? && UserId(stored) != "" && outcome == Accepted
    ensures r.event.Completed? || r.event.SubmitFailed? ==> r.next == t
    ensures NeedsLogin(r.event) ==> r.next == RequireLogin(t) && ScreenOf(r.next) == LoginScreen
    ensures SelectedAnswer(t) != None && t.index + 1 >= |quiz.questions| ==>
      && (stored.Missing? <==> r.event == SessionExpired)
      && (stored.Unparseable? <==> r.event == InvalidSession)
      && (stored.Stored? && UserId(stored) == "" <==> r.event == MissingUserId)
    ensures (SelectedAnswer(t) != None && t.index + 1 >= |quiz.questions|
             && stored.Stored? && UserId(stored) != "" && outcome.Failed?) ==>
      r.event == SubmitFailed(SubmitFailureMessage(outcome.serverError))
    ensures r.event.Completed? ==>
      && r.event.result.playerName == t.playerName
      && r.event.result.topic == ""
      && r.event.result.answers == t.answers
      && r.event.result.totalQuestions == |quiz.questions|
      && r.event.result.score == |CorrectPositions(t.answers, quiz.questions)|
      && r.event.result.score <= |quiz.questions|
      && r.event.sent.score == r.event.result.score
      && r.event.sent.playerName == t.playerName
      && r.event.sent.totalQuestions == |quiz.questions|
      && r.event.sent.answers == t.answers
      && r.event.sent.quizId == quiz.mongoId
      && r.event.sent.userId == UserId(stored) && UserId(stored) != ""
      && r.event.sent.topic == quiz.topic
  {
    var n := |quiz.questions|;
    if SelectedAnswer(t) == None then Step(t, AnswerRequired)
    else if t.index + 1 < n then Step(t.(index := t.index + 1), Moved)
    else
      var score := Score(t.answers, quiz.questions);
      ScoreCountsCorrectPositions(t.answers, quiz.questions);
      match stored
      case Missing => Step(RequireLogin(t), SessionExpired)
      case Unparseable => Step(RequireLogin(t), InvalidSession)
      case Stored(_, _, _) =>
        var userId := UserId(stored);
        if userId == "" then Step(RequireLogin(t), MissingUserId)
        else
          match outcome
          case Accepted =>
            var result := AttemptResult(t.playerName, "", score, n, t.answers);
            var sent := Submission(quiz.mongoId, t.playerName, userId, quiz.topic, score, n, t.answers);
            Step(t, Completed(result, sent))
          case Failed(e) => Step(t, SubmitFailed(SubmitFailureMessage(e)))
  }

  /** The label of the forward button: "Next" before the last question,
      "Finish Quiz" on it. It finishes exactly when an answered advance does
      not move on. */
  predicate ShowsFinish(t: Taker, n: nat) {
    !(t.index + 1 < n)
  }

  lemma FinishLabelMatchesAdvance(t: Taker, quiz: Quiz, stored: StoredUser, outcome: SubmitOutcome)
    requires |t.answers| <= |quiz.questions| && SelectedAnswer(t) != None
    ensures ShowsFinish(t, |quiz.questions|) <==> Advance(t, quiz, stored, outcome).event != Moved
  {
  }

  /** A successful start on a non-empty quiz begins taking it, and every
      transition available while taking keeps the index on a question and
      one slot per question. */
  lemma StartBeginsTaking(t: Taker, n: nat)
    requires !IsBlank(t.playerName) && n > 0
    ensures Taking(Start(t, n), n)
    ensures ScreenOf(Start(t, n)) == QuestionScreen(0) || Start(t, n).auth != NoAuth
  {
  }

  lemma TakingPreserved(t: Taker, quiz: Quiz, k: nat, stored: StoredUser, outcome: SubmitOutcome, name: string, form: AuthView)
    requires Taking(t, |quiz.questions|)
    ensures Taking(Select(t, k), |quiz.questions|)
    ensures Taking(Retreat(t), |quiz.questions|)
    ensures Taking(Advance(t, quiz, stored, outcome).next, |quiz.questions|)
    ensures Taking(LoginSucceeded(t, name), |quiz.questions|)
    ensures form != NoAuth ==> Taking(ShowAuthForm(t, form), |quiz.questions|)
    ensures Taking(EditName(t, name), |quiz.questions|)
  {
  }

  /** A slot, once answered, stays answered. */
  predicate NoSlotCleared(before: seq<Option<nat>>, after: seq<Option<nat>>) {
    |before| == |after| && forall i :: 0 <= i < |before| && before[i] != None ==> after[i] != None
  }

  lemma AnswersNeverCleared(t: Taker, quiz: Quiz, k: nat, stored: StoredUser, outcome: SubmitOutcome)
    requires Taking(t, |quiz.questions|)
    ensures NoSlotCleared(t.answers, Select(t, k).answers)
    ensures NoSlotCleared(t.answers, Retreat(t).answers)
    ensures NoSlotCleared(t.answers, Advance(t, quiz, stored, outcome).next.answers)
  {
  }

  /** A failed submit loses nothing: advancing again from the resulting state
      submits the same score and answers, and completes once the backend
      accepts. */
  lemma RetryAfterFailedSubmit(t: Taker, quiz: Quiz, stored: StoredUser, e: string)
    requires |t.answers| <= |quiz.questions|
    requires Advance(t, quiz, stored, Failed(e)).event.SubmitFailed?
    ensures var retry := Advance(Advance(t, quiz, stored, Failed(e)).next, quiz, stored, Accepted);
      && retry.event.Completed?
      && retry.event.result.answers == t.answers
      && retry.event.result.score == Score(t.answers, quiz.questions)
  {
    ScoreCountsCorrectPositions(t.answers, quiz.questions);
  }

  /** An unusable session on the last question sends the participant to the
      login form; logging in returns to the same question with the same
      answers, ready to submit again. */
  lemma LoginResumesAttempt(t: Taker, quiz: Quiz, stored: StoredUser, outcome: SubmitOutcome, name: string)
    requires |t.answers| <= |quiz.questions| && t.started
    requires NeedsLogin(Advance(t, quiz, stored, outcome).event)
    ensures var back := LoginSucceeded(Advance(t, quiz, stored, outcome).next, name);
      && ScreenOf(back) == QuestionScreen(t.index)
      && back.answers == t.answers
      && SelectedAnswer(back) == SelectedAnswer(t)
  {
  }

  /** The worked quiz of the scenarios below: two questions whose correct
      options are 2 and 0. */
  function WorkedQuiz(): Quiz {
    Quiz("quiz1", "", "topic",
      [Question(1, "q1", ["a", "b", "c", "d"], 2), Question(2, "q2", ["a", "b", "c", "d"], 0)],
      0, [], "owner")
  }

  /** A worked attempt, step by step: start with two empty slots, answer 2,
      move on, answer 1, finish with score 1 of 2, i.e. 50%. */
  lemma WorkedStart()
    ensures Start(Taker(0, [], "Ada", false, true, NoAuth), 2) == Taker(0, [None, None], "Ada", true, true, NoAuth)
  {
    var t := Taker(0, [], "Ada", false, true, NoAuth);
    AdaIsNotBlank();
    StartsNamed(t, 2);
    TwoEmptySlots();
  }

  lemma TwoEmptySlots()
    ensures EmptySlots(2) == [None, None]
  {
    assert EmptySlots(1) == [None];
  }

  lemma StartsNamed(t: Taker, n: nat)
    requires !IsBlank(t.playerName)
    ensures Start(t, n) == t.(answers := EmptySlots(n), index := 0, started := true)
  {
  }

  lemma WorkedFirstAnswer()
    ensures Select(Taker(0, [None, None], "Ada", true, true, NoAuth), 2) == Taker(0, [Some(2), None], "Ada", true, true, NoAuth)
    ensures Advance(Taker(0, [Some(2), None], "Ada", true, true, NoAuth), WorkedQuiz(), Stored("Ada", "u1", ""), Accepted)
      == Step(Taker(1, [Some(2), None], "Ada", true, true, NoAuth), Moved)
  {
  }

  lemma WorkedFinish()
    ensures Select(Taker(1, [Some(2), None], "Ada", true, true, NoAuth), 1) == Taker(1, [Some(2), Some(1)], "Ada", true, true, NoAuth)
    ensures
      var s := Advance(Taker(1, [Some(2), Some(1)], "Ada", true, true, NoAuth), WorkedQuiz(), Stored("Ada", "u1", ""), Accepted);
      && s.event.Completed?
      && s.event.result.score == 1
      && s.event.result.totalQuestions == 2
      && Percent(s.event.result.score, s.event.result.totalQuestions) == 50
  {
    var qs := WorkedQuiz().questions;
    var answers := [Some(2), Some(1)];
    assert Score(answers, qs) == 1 by {
      assert answers[..1] == [Some(2)];
      assert [Some(2)][..0] == [];
      assert Score(answers[..1], qs) == 1;
    }
  }

  lemma AdaIsNotBlank()
    ensures !IsBlank("Ada")
  {
    assert !IsWhitespace('A');
    TrimOfTrimmed("Ada");
  }

  /** Advancing from an unanswered first question stays put with every slot empty. */
  lemma UnansweredFirstQuestionBlocks(quiz: Quiz, stored: StoredUser, outcome: SubmitOutcome)
    requires |quiz.questions| > 0
    ensures
      var s := Advance(Start(Taker(0, [], "Ada", false, true, NoAuth), |quiz.questions|), quiz, stored, outcome);
      && s.event == AnswerRequired
      && s.next.index == 0
      && |s.next.answers| == |quiz.questions|
      && forall i :: 0 <= i < |s.next.answers| ==> s.next.answers[i] == None
  {
    AdaIsNotBlank();
    var n := |quiz.questions|;
    var t0 := Taker(0, [], "Ada", false, true, NoAuth);
    var t := Start(t0, n);
    assert t.answers[0] == None;
    var s := Advance(t, quiz, stored, outcome);
    assert s == Step(t, AnswerRequired);
  }
}

=== FILE: ranking.dfy ===
/** Rank decorations. A rank is always a row's position in the list the
    server returned plus one: neither leaderboard view sorts. */
module Ranking {
  import opened Wrappers

  /** The icon `getRankIcon` draws beside a rank: three distinct trophies for
      the podium, the plain number otherwise. Both leaderboard views use the
      same choice (only the colours differ). */
  datatype Icon = Trophy | Medal | Award | Plain(rank: int)

  function RankIcon(rank: int): (icon: Icon)
    ensures icon == Trophy <==> rank == 1
    ensures icon == Medal <==> rank == 2
    ensures icon == Award <==> rank == 3
    ensures icon.Plain? <==> !(1 <= rank <= 3)
    ensures icon.Plain? ==> icon.rank == rank
  {
    match rank
    case 1 => Trophy
    case 2 => Medal
    case 3 => Award
    case _ => Plain(rank)
  }

  /** The row background of the quiz leaderboard page (`getRankBg`). */
  datatype Background = Gold | Silver | Amber | Standard

  function RankBackground(rank: int): (bg: Background)
    ensures bg == Gold <==> rank == 1
    ensures bg == Silver <==> rank == 2
    ensures bg == Amber <==> rank == 3
    ensures bg == Standard <==> !(1 <= rank <= 3)
  {
    if rank == 1 then Gold
    else if rank == 2 then Silver
    else if rank == 3 then Amber
    else Standard
  }

  /** The badge shown next to a name on the leaderboard page, guarded by
      `rank <= 3`. */
  datatype Badge = Winner | Second | Third

  function RankBadge(rank: int): (b: Option<Badge>)
    ensures b.Some? <==> rank <= 3
    ensures b == Some(Winner) <==> rank == 1
    ensures b == Some(Second) <==> rank == 2
    ensures b == Some(Third) <==> rank <= 3 && rank != 1 && rank != 2
  {
    if rank <= 3 then
      Some(if rank == 1 then Winner else if rank == 2 then Second else Third)
    else None
  }

  /** For positions in a list (ranks from 1), a row is decorated by icon,
      background and badge together or by none of them, and the three podium
      ranks are told apart by each. */
  lemma PodiumDecorationsAgree(rank: int)
    requires rank >= 1
    ensures RankBadge(rank).Some? <==> RankBackground(rank) != Standard
    ensures RankBadge(rank).Some? <==> !RankIcon(rank).Plain?
    ensures forall other :: 1 <= other <= 3 && 1 <= rank <= 3 && other != rank ==>
      RankIcon(other) != RankIcon(rank)
      && RankBackground(other) != RankBackground(rank)
      && RankBadge(other) != RankBadge(rank)
  {
  }
}

=== FILE: results_page.dfy ===
/** The stored-result page: it loads one result, then the quiz it belongs to,
    and shows the score, the rounded percentage, the topic and a review of
    every question. */
module ResultsPage {
  import opened Wrappers
  import opened Entities
  import opened Grading
  import opened Review
  import QuizTaker

  /** What the page renders once loading has finished. `percentage` is `None`
      for a result with no questions, where the browser would print `NaN` or
      `Infinity`. */
  datatype ResultsView =
    | NotFound                    // "Result not found"
    | Report(score: nat, total: nat, percentage: Option<int>, topic: string, rows: seq<ReviewRow>)

  /** The page for a loaded quiz and result, either of which may be absent. */
  function ShowResults(quiz: Option<Quiz>, result: Option<AttemptResult>): (v: ResultsView)
    ensures v.NotFound? <==> quiz.None? || result.None?
    ensures v.Report? ==>
      && v.score == result.value.score
      && v.total == result.value.totalQuestions
      && v.percentage == ResultPercent(result.value)
      && v.topic == quiz.value.topic
      && v.rows == ReviewAll(quiz.value.questions, result.value.answers)
      && |v.rows| == |quiz.value.questions|
      && forall i :: 0 <= i < |v.rows| ==>
           (v.rows[i].correct <==> i < |result.value.answers|
                                   && Matches(result.value.answers[i], quiz.value.questions[i].correctAnswer))
  {
    if quiz.None? || result.None? then NotFound
    else
      var r := result.value;
      Report(r.score, r.totalQuestions, ResultPercent(r), quiz.value.topic, ReviewAll(quiz.value.questions, r.answers))
  }

  /** Where the page ends up: a failed request, or a result body that is
      absent (reading its `quizId` throws), sends the user back to the
      dashboard; an absent quiz body renders "Result not found". */
  datatype ResultsScreen = ToDashboard | Shown(view: ResultsView)

  function OpenResults(resultFetch: Fetch<AttemptResult>, quizFetch: Fetch<Quiz>): (s: ResultsScreen)
    ensures s == ToDashboard <==>
      resultFetch.FetchFailed? || resultFetch.body.None? || quizFetch.FetchFailed?
    ensures s.Shown? ==> s.view == ShowResults(quizFetch.body, resultFetch.body)
    ensures s.Shown? ==> (s.view.NotFound? <==> quizFetch.body.None?)
  {
    match resultFetch
    case FetchFailed => ToDashboard
    case Loaded(None) => ToDashboard
    case Loaded(Some(_)) =>
      match quizFetch
      case FetchFailed => ToDashboard
      case Loaded(q) => Shown(ShowResults(q, resultFetch.body))
  }

  /** A result the taker completed, shown against the quiz it was taken on,
      marks as many questions correct as its score says, and its percentage
      lies in 0..100 — 100 when every question was answered correctly. */
  lemma CompletedAttemptReviewsAsScored(
    t: QuizTaker.Taker, quiz: Quiz, stored: StoredUser, outcome: QuizTaker.SubmitOutcome)
    requires |t.answers| <= |quiz.questions|
    requires QuizTaker.Advance(t, quiz, stored, outcome).event.Completed?
    ensures var result := QuizTaker.Advance(t, quiz, stored, outcome).event.result;
      var v := ShowResults(Some(quiz), Some(result));
      && v.Report?
      && CountCorrect(v.rows) == v.score
      && v.percentage.Some? && 0 <= v.percentage.value <= 100
      && (v.score == |quiz.questions| ==> v.percentage == Some(100))
  {
    var result := QuizTaker.Advance(t, quiz, stored, outcome).event.result;
    ScoreCountsCorrectPositions(t.answers, quiz.questions);
    CorrectRowsEqualScore(quiz.questions, t.answers);
    PercentInRange(result.score, result.totalQuestions);
  }
}

=== FILE: review.dfy ===
/** The answer review shared by the quiz-result leaderboard and the results
    page: each question is marked right or wrong, and each of its options is
    coloured and badged against the correct index and the participant's
    choice. Both views apply the same rules; only their wording differs. */
module Review {
  import opened Wrappers
  import opened Entities
  import opened Grading

  /** `result.answers[index]`: a slot past the end reads as `undefined`,
      which matches no option. */
  function AnswerAt(answers: seq<Option<nat>>, i: nat): (a: Option<nat>)
    ensures i >= |answers| ==> a == None
  {
    if i < |answers| then answers[i] else None
  }

  /** The colour of an option: green for the correct one, red for the
      participant's wrong pick, neutral otherwise. */
  datatype Mark = CorrectOption | WrongPick | Neutral

  function MarkOption(userAnswer: Option<nat>, correct: int, option: nat): (m: Mark)
    ensures m == CorrectOption <==> option as int == correct
    ensures m == WrongPick <==> userAnswer == Some(option) && option as int != correct
    ensures m == Neutral <==> option as int != correct && userAnswer != Some(option)
  {
    if option as int == correct then CorrectOption
    else if userAnswer == Some(option) then WrongPick
    else Neutral
  }

  /** The badges, each guarded by its own condition in the view: one on the
      correct option, "Your Answer" on the participant's pick when it is not
      the correct one. */
  datatype Badge = CorrectBadge | YourAnswerBadge

  function OptionBadges(userAnswer: Option<nat>, correct: int, option: nat): seq<Badge> {
    (if option as int == correct then [CorrectBadge] else [])
    + (if userAnswer == Some(option) && option as int != correct then [YourAnswerBadge] else [])
  }

  /** An option carries at most one badge, and it is the one its colour calls for. */
  lemma BadgesFollowMarks(userAnswer: Option<nat>, correct: int, option: nat)
    ensures var b := OptionBadges(userAnswer, correct, option);
      && |b| <= 1
      && (b == [CorrectBadge] <==> MarkOption(userAnswer, correct, option) == CorrectOption)
      && (b == [YourAnswerBadge] <==> MarkOption(userAnswer, correct, option) == WrongPick)
      && (b == [] <==> MarkOption(userAnswer, correct, option) == Neutral)
  {
    var b := OptionBadges(userAnswer, correct, option);
    if option as int == correct {
      assert b == [CorrectBadge];
    } else if userAnswer == Some(option) {
      assert b == [YourAnswerBadge];
    } else {
      assert b == [];
    }
  }

  /** `String.fromCharCode(65 + optIndex)`: the letter before an option.
      Code points from U+D800 on are surrogates, which are not characters. */
  function OptionLabel(option: nat): (c: char)
    requires 65 + option < 0xD800
    ensures c as int == 65 + option
    ensures option < 26 ==> 'A' <= c <= 'Z'
  {
    (65 + option) as char
  }

  /** Different options get different letters, and the first four are A to D. */
  lemma OptionLabelsDistinct(a: nat, b: nat)
    requires 65 + a < 0xD800 && 65 + b < 0xD800
    ensures OptionLabel(a) == OptionLabel(b) <==> a == b
    ensures [OptionLabel(0), OptionLabel(1), OptionLabel(2), OptionLabel(3)] == "ABCD"
  {
  }

  /** One reviewed question: whether it was answered correctly, and the mark
      of each option in order. */
  datatype ReviewRow = ReviewRow(correct: bool, marks: seq<Mark>)

  function ReviewQuestion(q: Question, userAnswer: Option<nat>): (row: ReviewRow)
    ensures row.correct <==> Matches(userAnswer, q.correctAnswer)
    ensures |row.marks| == |q.options|
    ensures forall o :: 0 <= o < |q.options| ==> row.marks[o] == MarkOption(userAnswer, q.correctAnswer, o)
  {
    ReviewRow(
      Matches(userAnswer, q.correctAnswer),
      seq(|q.options|, o requires 0 <= o < |q.options| => MarkOption(userAnswer, q.correctAnswer, o)))
  }

  /** Within a well-formed question, a row is correct exactly when no option
      is marked as a wrong pick and the pick is an option, and exactly one
      option is green. */
  lemma RowMarksAgree(q: Question, userAnswer: Option<nat>)
    requires 0 <= q.correctAnswer < |q.options|
    ensures var row := ReviewQuestion(q, userAnswer);
      && (row.correct <==>
           userAnswer.Some? && userAnswer.value < |q.options|
           && forall o :: 0 <= o < |row.marks| ==> row.marks[o] != WrongPick)
      && row.marks[q.correctAnswer] == CorrectOption
      && forall o :: 0 <= o < |row.marks| && row.marks[o] == CorrectOption ==> o == q.correctAnswer
  {
    var row := ReviewQuestion(q, userAnswer);
    if userAnswer.Some? && userAnswer.value < |q.options| && !row.correct {
      assert row.marks[userAnswer.value] == WrongPick;
    }
  }

  /** `quiz.questions.map(...)`: one row per question, in quiz order, against
      the answer stored at the same position. */
  function ReviewAll(qs: seq<Question>, answers: seq<Option<nat>>): (rows: seq<ReviewRow>)
    ensures |rows| == |qs|
    ensures forall i :: 0 <= i < |qs| ==> rows[i] == ReviewQuestion(qs[i], AnswerAt(answers, i))
  {
    seq(|qs|, i requires 0 <= i < |qs| => ReviewQuestion(qs[i], AnswerAt(answers, i)))
  }

  /** The number of rows marked correct. */
  function CountCorrect(rows: seq<ReviewRow>): nat
    decreases |rows|
  {
    if |rows| == 0 then 0
    else CountCorrect(rows[..|rows| - 1]) + (if rows[|rows| - 1].correct then 1 else 0)
  }

  ghost function CorrectRows(rows: seq<ReviewRow>): set<nat> {
    set i: nat | i < |rows| && rows[i].correct
  }

  lemma {:induction false} CountCorrectIsCardinality(rows: seq<ReviewRow>)
    ensures CountCorrect(rows) == |CorrectRows(rows)|
    decreases |rows|
  {
    if |rows| > 0 {
      var k := |rows| - 1;
      CountCorrectIsCardinality(rows[..k]);
      var before := CorrectRows(rows[..k]);
      if rows[k].correct {
        assert CorrectRows(rows) == before + {k};
      } else {
        assert CorrectRows(rows) == before;
      }
    }
  }

  /** Reviewing stored answers against the same questions marks exactly as
      many rows correct as the score counts; positions without an answer are
      marked wrong. */
  lemma CorrectRowsEqualScore(qs: seq<Question>, answers: seq<Option<nat>>)
    requires |answers| <= |qs|
    ensures CountCorrect(ReviewAll(qs, answers)) == Score(answers, qs)
  {
    var rows := ReviewAll(qs, answers);
    CountCorrectIsCardinality(rows);
    ScoreCountsCorrectPositions(answers, qs);
    assert CorrectRows(rows) == CorrectPositions(answers, qs);
  }
}

=== FILE: text.dfy ===
/** String helpers with JavaScript semantics: `trim`, truthiness of strings,
    `startsWith`/`endsWith`, and the `a || b` idiom the components use to pick
    the first present identifier. */
module Text {

  /** The code points `String.prototype.trim` removes: ECMAScript WhiteSpace
      (TAB, VT, FF, SP, NBSP, ZWNBSP and the Unicode space separators) and
      LineTerminator (LF, CR, LS, PS). */
  predicate IsWhitespace(c: char) {
    || c == '\t' || c == '\n' || c == '\U{000B}' || c == '\U{000C}' || c == '\r'
    || c == ' ' || c == '\U{00A0}' || c == '\U{1680}'
    || ('\U{2000}' <= c <= '\U{200A}')
    || c == '\U{2028}' || c == '\U{2029}' || c == '\U{202F}' || c == '\U{205F}'
    || c == '\U{3000}' || c == '\U{FEFF}'
  }

  predicate AllWhitespace(s: string) {
    forall i :: 0 <= i < |s| ==> IsWhitespace(s[i])
  }

  /** `s.trimStart()`: drops the leading whitespace and nothing else. */
  function TrimStart(s: string): (r: string)
    ensures |r| <= |s| && r == s[|s| - |r|..]
    ensures AllWhitespace(s[..|s| - |r|])
    ensures |r| > 0 ==> !IsWhitespace(r[0])
    decreases |s|
  {
    if |s| > 0 && IsWhitespace(s[0]) then TrimStart(s[1..]) else s
  }

  /** `s.trimEnd()`: drops the trailing whitespace and nothing else. */
  function TrimEnd(s: string): (r: string)
    ensures |r| <= |s| && r == s[..|r|]
    ensures AllWhitespace(s[|r|..])
    ensures |r| > 0 ==> !IsWhitespace(r[|r| - 1])
    decreases |s|
  {
    if |s| > 0 && IsWhitespace(s[|s| - 1]) then TrimEnd(s[..|s| - 1]) else s
  }

  /** Neither the first nor the last character is whitespace. */
  predicate Trimmed(s: string) {
    |s| > 0 ==> !IsWhitespace(s[0]) && !IsWhitespace(s[|s| - 1])
  }

  /** `s.trim()`. The result is a contiguous piece of `s` that neither starts
      nor ends with whitespace, and it is empty exactly when `s` is all
      whitespace. */
  function Trim(s: string): (r: string)
    ensures |r| <= |s|
    ensures |r| > 0 ==> !IsWhitespace(r[0]) && !IsWhitespace(r[|r| - 1])
    ensures r == "" <==> AllWhitespace(s)
  {
    var t := TrimStart(s);
    var r := TrimEnd(t);
    assert r == "" <==> AllWhitespace(s) by {
      if r == "" {
        assert t[|r|..] == t;
        assert s == s[..|s| - |t|] + t;
      }
    }
    r
  }

  /** `s.trim()` is a contiguous piece of `s`: after the leading whitespace,
      which `s.trimStart()` drops, it is the first `|s.trim()|` characters,
      and only whitespace follows them. */
  lemma TrimIsInfix(s: string)
    ensures |Trim(s)| <= |TrimStart(s)| <= |s|
    ensures Trim(s) == s[|s| - |TrimStart(s)|..][..|Trim(s)|]
    ensures AllWhitespace(s[..|s| - |TrimStart(s)|])
    ensures AllWhitespace(s[|s| - |TrimStart(s)|..][|Trim(s)|..])
  {
  }

  /** `!s.trim()`: the string is empty after trimming. */
  predicate IsBlank(s: string) {
    Trim(s) == ""
  }

  /** A string that does not begin or end with whitespace is its own trim. */
  lemma {:induction false} TrimOfTrimmed(s: string)
    requires |s| > 0 ==> !IsWhitespace(s[0]) && !IsWhitespace(s[|s| - 1])
    ensures Trim(s) == s
  {
  }

  /** Trimming twice is trimming once. */
  lemma TrimIdempotent(s: string)
    ensures Trim(Trim(s)) == Trim(s)
  {
    TrimOfTrimmed(Trim(s));
  }

  predicate StartsWith(s: string, prefix: string) {
    |prefix| <= |s| && s[..|prefix|] == prefix
  }

  predicate EndsWith(s: string, suffix: string) {
    |suffix| <= |s| && s[|s| - |suffix|..] == suffix
  }

  /** JavaScript's `a || b` on two strings: `a` unless it is the (falsy) empty
      string. */
  function Or(a: string, b: string): (r: string)
    ensures a != "" ==> r == a
    ensures a == "" ==> r == b
    ensures r == "" <==> a == "" && b == ""
  {
    if a != "" then a else b
  }
}

=== FILE: wrappers.dfy ===
/** Small failure-compatible datatypes shared by every module of the model. */
module Wrappers {

  /** A value that may be missing: JavaScript's `null`/`undefined` slot. */
  datatype Option<+T> = None | Some(value: T) {

    /** The value, or a default when missing (JavaScript's `x ?? d`). */
    function GetOr(default: T): T {
      match this
      case Some(v) => v
      case None => default
    }
  }

  /** The outcome of one HTTP request issued by a page: either a response whose
      body may be `null`, or a rejected promise (network error, non-2xx status). */
  datatype Fetch<+T> = Loaded(body: Option<T>) | FetchFailed
}
